=== FILE: README.md ===
# HawkHub game widgets in Dafny

This project models the sequential logic behind the HawkHub browser mini-games:

- the **leaderboard widget** shared by the games. It mounts once and opens or collapses. It lets the player choose between a polled global ("dynamic") board and a per-game ("elementary") board. On the elementary board scores can be added and deleted, with the cache always replaced by the latest fetch. Player names are HTML-escaped before they are rendered.
- the **level navigation** of the mansion game's `GameCore`: return home, previous and next level, the pause button, and the container id handed to the leaderboard.
- the **`PauseFeature`** two-state pause switch.
- the **`scoreSettings.buildDto`** of the adventure and the mansion game, which builds the saved-score record from the pause menu's statistics.

Every operation is a pure function over immutable records. The page is reduced to the few things the widget changes on it. Network replies, the delete confirmation and the DOM lookup of the host element are inputs. Calls into the engine are recorded in order.

Modules:

- `Wrappers`: `Option`.
- `JsText`: `trim`, and `parseInt` on decimal input.
- `JsValue`: JavaScript truthiness, `Number(...)` and the value-returning `||`.
- `HtmlEscape`: `escape`, with its inverse `Unescape`.
- `Leaderboard`: the widget's operations.
- `LeaderboardSession`: events, the enabling of controls, and the invariant over whole runs.
- `PauseFeature`: the pause switch.
- `MansionCore`: `Game.js`.
- `ScoreSettings`: both games' `scoreSettings`. The two differ only in a constant `Settings` value.

Two behaviours of the code are worth stating up front:

- A dynamic poll that completes after `goBack` still redraws the list. `fetchLeaderboard` checks the mode only before sending (`Leaderboard.js` line 676). Each request and its completion are one step here, so this race is outside the model (see Left out).
- A freshly mounted widget is collapsed but shows its title and hides its preview (lines 272-274). Title and preview follow `isOpen` only after the first `toggle`. `Leaderboard.MountedHeaderShowsTitle` states this.

## Model

| member | source | states |
|---|---|---|
| JsText.Trim | assets/js/BetterGameEngine/features/Leaderboard.js:442 | the trimmed name is the field with white space removed from both ends: a contiguous slice of it, bounded by white space only, with no white space left at either end |
| JsText.TrimEmptyIffAllSpace | assets/js/BetterGameEngine/features/Leaderboard.js:442-445 | a name field is rejected as empty exactly when it consists only of white space |
| JsText.TrimIdempotent | assets/js/BetterGameEngine/features/Leaderboard.js:442 | trimming an already trimmed name changes nothing |
| JsText.ParseIntOfDecimal | assets/js/BetterGameEngine/features/Leaderboard.js:443 | `parseInt` reads back every integer written in decimal, sign included |
| JsText.ParseIntNeedsDigit | assets/js/BetterGameEngine/features/Leaderboard.js:443-445 | a score field without a single digit parses to NaN and is rejected |
| JsText.ParseIntOfDigitsThen | assets/js/BetterGameEngine/features/Leaderboard.js:443 | `parseInt` reads the leading digits and ignores whatever non-digit text follows them |
| HtmlEscape.Escape | assets/js/BetterGameEngine/features/Leaderboard.js:741-745 | the output has no raw `< > " '`, and every `&` in it begins one of `&amp; &lt; &gt; &quot; &#039;`; a string without the five characters is returned unchanged |
| HtmlEscape.EscapeOptional | assets/js/BetterGameEngine/features/Leaderboard.js:741 | a missing argument escapes to the empty string (the `str = ''` default); a present one escapes to safe markup text that decodes back to it |
| HtmlEscape.UnescapeEscape | assets/js/BetterGameEngine/features/Leaderboard.js:741-745 | decoding the five references in the escaped text gives back the original name: escaping loses nothing |
| HtmlEscape.EscapeInjective | assets/js/BetterGameEngine/features/Leaderboard.js:741-745 | two names that render alike are the same name |
| HtmlEscape.EscapeAppend | assets/js/BetterGameEngine/features/Leaderboard.js:742-744 | the replacement is per character, so escaping distributes over concatenation |
| HtmlEscape.TagIsNeutralised | assets/js/BetterGameEngine/features/Leaderboard.js:742-744 | a tag such as `<script>` in a name renders as `&lt;script&gt;` text |
| Leaderboard.New | assets/js/BetterGameEngine/features/Leaderboard.js:4-25 | an empty game name falls back to `Global` and an empty parent id to none; the widget starts closed, without mode, with the type selection pending, no cache and no timer; it mounts at once, and is on the page, exactly when a backend is configured and the document has loaded, then embedded exactly when a parent id was given and its element found, showing the type selection |
| Leaderboard.DocumentReady | assets/js/BetterGameEngine/features/Leaderboard.js:235-241 | a constructor that ran while the document was loading mounts on `DOMContentLoaded`, once |
| Leaderboard.Mount | assets/js/BetterGameEngine/features/Leaderboard.js:243-295 | mounting a mounted widget changes nothing; otherwise the widget is embedded exactly when a parent id was given and its element found, shows the type selection, and changes no other field |
| Leaderboard.ShowTypeSelection | assets/js/BetterGameEngine/features/Leaderboard.js:343-355 | the list region shows the two board choices, and nothing happens when the region is absent |
| Leaderboard.Toggle | assets/js/BetterGameEngine/features/Leaderboard.js:297-318 | `isOpen` flips; afterwards the title is visible exactly when open and the preview exactly when collapsed, the content is hidden exactly when collapsed, the button reads `−`/`+`, and nothing else changes |
| Leaderboard.ToggleTwice | assets/js/BetterGameEngine/features/Leaderboard.js:303-317 | two toggles restore `isOpen`, and the whole widget once its header agrees with `isOpen`; three toggles equal one |
| Leaderboard.MountedHeaderShowsTitle | assets/js/BetterGameEngine/features/Leaderboard.js:272-274 | a freshly mounted widget is collapsed yet shows the title, not the preview |
| Leaderboard.GoBack | assets/js/BetterGameEngine/features/Leaderboard.js:320-341 | the polling timer is cleared and `refreshInterval` emptied; mode is none and the type selection is pending and shown; the back button is hidden and the preview reset to the placeholder; the header, the settings and the fetched entries are kept |
| Leaderboard.Destroy | assets/js/BetterGameEngine/features/Leaderboard.js:747-752 | the widget leaves the page and its timer is cleared; every other field, `refreshInterval` included, stays as it was |
| Leaderboard.DestroyIdempotent | assets/js/BetterGameEngine/features/Leaderboard.js:747-752 | destroying twice is the same as destroying once |
| Leaderboard.ToggleVisibility | assets/js/BetterGameEngine/features/Leaderboard.js:757-766 | visibility flips while the widget is on the page, only the `display` of the node changes, and nothing happens after it is removed |
| Leaderboard.ToggleVisibilityTwice | assets/js/BetterGameEngine/features/Leaderboard.js:757-766 | two visibility toggles restore the widget exactly |
| Leaderboard.IsVisible | assets/js/BetterGameEngine/features/Leaderboard.js:771-774 | visible means on the page with `display` not `none`; a widget off the page is never visible |
| Leaderboard.MountedIsVisible | assets/js/BetterGameEngine/features/Leaderboard.js:771-774 | a freshly mounted widget is visible, one visibility toggle hides it and a second shows it again |
| Leaderboard.ElementaryTableFaithful | assets/js/BetterGameEngine/features/Leaderboard.js:615-624 | the elementary table has exactly as many rows as entries; row `k` has rank `k + 1`, and its name unescapes to the entry's user |
| Leaderboard.GlobalTableFaithful | assets/js/BetterGameEngine/features/Leaderboard.js:726-735 | the global table has one row per entry, ranked by position; every text cell is safe markup that decodes to the entry's player (first truthy of `user`, `username`) and game (first truthy of `gameName`, `game`) |
| Leaderboard.DisplayElementary | assets/js/BetterGameEngine/features/Leaderboard.js:587-627 | the list shows the table of the cached entries with the form below; the preview shows the top entry when there is one and is otherwise untouched |
| Leaderboard.DisplayLeaderboard | assets/js/BetterGameEngine/features/Leaderboard.js:699-739 | a non-array or empty body shows "No scores yet" and leaves the preview alone; otherwise the ranked table, with the top entry's player and score in the preview |
| Leaderboard.FetchLeaderboard | assets/js/BetterGameEngine/features/Leaderboard.js:675-697 | outside dynamic mode, or off the page, it sends nothing and changes nothing; otherwise one global request, then the board or the error text, back button untouched |
| Leaderboard.StartPolling | assets/js/BetterGameEngine/features/Leaderboard.js:380 | a fresh handle is started and kept in `refreshInterval` |
| Leaderboard.ChooseDynamic | assets/js/BetterGameEngine/features/Leaderboard.js:357-381 | the mode becomes dynamic; on the page it sends one global request, shows its result with the back button, and starts exactly one new timer under a fresh handle; header, settings and cache are kept |
| Leaderboard.ChooseDynamicShowsReply | assets/js/BetterGameEngine/features/Leaderboard.js:370-381 | the first reply decides the view: a failure shows the error text, a non-array or empty body "No scores yet", both with the preview kept; entries show the ranked board with the top player and score in the preview |
| Leaderboard.FetchElementary | assets/js/BetterGameEngine/features/Leaderboard.js:552-585 | one request; the cache becomes the response on success and empty on any failure, then is redrawn |
| Leaderboard.FetchElementaryForgetsCache | assets/js/BetterGameEngine/features/Leaderboard.js:574-582 | the result of a fetch does not depend on the previous cache: nothing is merged |
| Leaderboard.ShowElementaryForm | assets/js/BetterGameEngine/features/Leaderboard.js:394-435 | the board when there are entries, the bare first-entry form when there are none |
| Leaderboard.ChooseElementary | assets/js/BetterGameEngine/features/Leaderboard.js:363-392 | the mode becomes elementary and one fetch is sent; the cache becomes the reply, or empty on failure; the back button shows; timers, header and settings are untouched; a widget off the page stays off it |
| Leaderboard.ChooseElementaryShowsEntries | assets/js/BetterGameEngine/features/Leaderboard.js:383-435 | no fetched entries shows the bare first-entry form with the preview kept; otherwise the board of the entries with the top entry in the preview |
| Leaderboard.ReadForm | assets/js/BetterGameEngine/features/Leaderboard.js:442-448 | input is rejected exactly when the name is blank or the score has no leading integer; otherwise the payload is the trimmed name, the parsed score and the widget's game, with no id |
| Leaderboard.AddElementaryScore | assets/js/BetterGameEngine/features/Leaderboard.js:437-508 | rejected input sends nothing and raises the input alert; valid input sends exactly one create with that payload, then a fetch on success; on failure the widget is untouched and the alert is the network one for an unreachable server and "Failed to save score" otherwise |
| Leaderboard.ReadFormOfDecimal | assets/js/BetterGameEngine/features/Leaderboard.js:442-448 | a trimmed, non-empty name with a written integer passes validation and is read back unchanged |
| Leaderboard.SubmitSendsForm | assets/js/BetterGameEngine/features/Leaderboard.js:462-490 | whatever form passes validation is posted exactly as read, and a successful post is followed by exactly one refetch |
| Leaderboard.SubmitSendsPayload | assets/js/BetterGameEngine/features/Leaderboard.js:462-466 | submitting a name and a written integer sends `{user: name, score, gameName}` and then exactly one fetch |
| Leaderboard.DeleteElementaryScore | assets/js/BetterGameEngine/features/Leaderboard.js:510-550 | without confirmation nothing is sent and nothing changes; with it one delete for that id, then a fetch on success, or an alert with the widget untouched on failure |
| LeaderboardSession.Step | assets/js/BetterGameEngine/features/Leaderboard.js:286-292 | an event whose control is not on the page changes nothing; every enabled event runs its handler: toggle, back, the two board buttons, a timer tick (a poll), submit (add), a delete click (delete of the clicked row's id), show/hide, teardown (`destroy`) and document-ready |
| LeaderboardSession.StepPreservesInv | assets/js/BetterGameEngine/features/Leaderboard.js:320-381 | every event keeps the invariant: the type selection shows exactly when no mode is chosen, and a timer runs exactly while the dynamic board is on the page |
| LeaderboardSession.RunPreservesInv | assets/js/BetterGameEngine/features/Leaderboard.js:320-381 | the invariant holds after any sequence of events |
| LeaderboardSession.AtMostOneTimer | assets/js/BetterGameEngine/features/Leaderboard.js:322-325 | under the invariant at most one timer runs, and only the dynamic board's |
| LeaderboardSession.SessionHasAtMostOneTimer | assets/js/BetterGameEngine/features/Leaderboard.js:380 | from construction, no sequence of events ever leaves two polling timers running |
| LeaderboardSession.TeardownStopsTimers | assets/js/BetterGameEngine/features/Leaderboard.js:747-750 | no timer runs after `destroy` |
| LeaderboardSession.DestroyedStaysQuiet | assets/js/BetterGameEngine/features/Leaderboard.js:747-752 | once a mounted widget is destroyed it stays off the page with no timer, whatever happens next |
| LeaderboardSession.FailedFetchShowsNoRows | assets/js/BetterGameEngine/features/Leaderboard.js:579-584 | after a failed fetch the board shows zero rows and the cache is empty |
| LeaderboardSession.UnconfirmedDeleteIsInert | assets/js/BetterGameEngine/features/Leaderboard.js:511-513 | a delete click that is not confirmed sends nothing and changes nothing |
| PauseFeature.New | assets/js/BetterGameEngine/features/PauseFeature.js:3-6 | a new feature is not paused |
| PauseFeature.Show | assets/js/BetterGameEngine/features/PauseFeature.js:8-19 | without a container nothing happens; with one the feature is paused, and `pause` is called exactly when the control has it as a function |
| PauseFeature.Hide | assets/js/BetterGameEngine/features/PauseFeature.js:21-30 | without a container nothing happens; with one the feature is unpaused, and `resume` is called exactly when the control has it as a function |
| PauseFeature.ResumeFeature | assets/js/BetterGameEngine/features/PauseFeature.js:32-34 | `resume` has exactly the effect of `hide` |
| PauseFeature.Toggle | assets/js/BetterGameEngine/features/PauseFeature.js:36-42 | with a container the pause flag is negated; without one nothing happens; `pause` is called exactly when there is a container, the feature is running and the control has `pause`; `resume` exactly when there is a container, the feature is paused and the control has `resume`; no other call is made |
| PauseFeature.ToggleTwice | assets/js/BetterGameEngine/features/PauseFeature.js:36-42 | two toggles restore the feature, and the calls between them form a sub-multiset of one `pause` and one `resume` |
| PauseFeature.NoContainerTogglesInert | assets/js/BetterGameEngine/features/PauseFeature.js:9 | without a container any number of toggles changes nothing |
| PauseFeature.NoContainerNeverPauses | assets/js/BetterGameEngine/features/PauseFeature.js:5 | a feature whose menu has no container is never paused |
| PauseFeature.TogglesParity | assets/js/BetterGameEngine/features/PauseFeature.js:36-42 | with a container, after `n` toggles the flag is the initial one when `n` is even and its negation when `n` is odd |
| MansionCore.New | assets/js/mansionGame/MansionLogic/Game.js:16-27 | the snapshot is the environment's level list, or empty without one, and the control starts on an equal copy |
| MansionCore.SetWorkingLevels | assets/js/mansionGame/MansionLogic/Game.js:17-20 | changing the control's working list leaves the snapshot as it was |
| MansionCore.ReturnHomeRestoresSnapshot | assets/js/mansionGame/MansionLogic/Game.js:17-20 | whatever the working list became, returning home restores the list given at construction |
| MansionCore.CleanupCalls | assets/js/mansionGame/MansionLogic/Game.js:196-203 | the running level is destroyed exactly when it has a `destroy` method, and handlers are cleaned up exactly when the control can; each call happens at most once, and the destroy comes first |
| MansionCore.ReturnHome | assets/js/mansionGame/MansionLogic/Game.js:193-210 | without a control or with an empty snapshot nothing happens; otherwise the working list equals the snapshot, the index is 0, the game is unpaused, and the calls are the clean-up calls followed by `transitionToLevel` |
| MansionCore.ReturnHomeIdempotent | assets/js/mansionGame/MansionLogic/Game.js:193-210 | returning home twice ends where returning once does |
| MansionCore.LoadNextLevel | assets/js/mansionGame/MansionLogic/Game.js:212-219 | the running level's `continue` flag is cleared only when both control and level exist, and nothing else changes |
| MansionCore.LoadNextLevelIdempotent | assets/js/mansionGame/MansionLogic/Game.js:212-219 | pressing "next" again before the engine moves on changes nothing more |
| MansionCore.LoadPreviousLevel | assets/js/mansionGame/MansionLogic/Game.js:221-236 | the index drops by exactly 1 when positive, after the clean-up calls and with a transition, nothing else changing; otherwise nothing happens; the snapshot and the container stay |
| MansionCore.LoadPreviousFloorsAtZero | assets/js/mansionGame/MansionLogic/Game.js:222-235 | `k` presses from level `i >= 0` land on `max(i - k, 0)`: the index never goes negative |
| MansionCore.PressPause | assets/js/mansionGame/MansionLogic/Game.js:111-119 | a paused game gets `resume` and the button reads "Pause"; a running one gets `pause` and the button reads "Resume"; nothing but `isPaused` changes in the control |
| MansionCore.PressPauseTwice | assets/js/mansionGame/MansionLogic/Game.js:111-119 | two presses restore the control, and the button always names what the next press does |
| MansionCore.ResolveParentId | assets/js/mansionGame/MansionLogic/Game.js:39-48 | a string container gives that string, an element with a non-empty id gives that id, anything else gives `gameContainer` |
| MansionCore.ParentIdEmptyOnlyForEmptyString | assets/js/mansionGame/MansionLogic/Game.js:39-48 | the resolved id is empty only for an empty id string |
| MansionCore.CreateLeaderboard | assets/js/mansionGame/MansionLogic/Game.js:35-54 | the leaderboard is named `MansionGame` and targets the resolved container (none for an empty id string); it mounts at once when a backend is configured and the document has loaded, embedded exactly when the id is non-empty and its element is found, otherwise as the viewport overlay |
| JsValue.StringToNumber | assets/js/adventureGame/scoreSettings.js:26 | `Number` of a blank string is 0, and NaN exactly when the trimmed text is not blank and not an optionally signed run of digits |
| JsValue.NumberRejectsTrailingText | assets/js/adventureGame/scoreSettings.js:31 | digits followed by other text are NaN to `Number`, while `parseInt` reads the digits |
| JsValue.StringToNumberOfDecimal | assets/js/adventureGame/scoreSettings.js:31 | `Number` reads back every integer written in decimal |
| JsValue.Or | assets/js/adventureGame/scoreSettings.js:27 | `a \|\| b` is `a` when `a` is truthy and `b` otherwise, and is truthy exactly when either operand is |
| JsValue.NumberOrZero | assets/js/adventureGame/scoreSettings.js:33-34 | `Number(v) \|\| 0` is the numeric value of `v`, and 0 when that is NaN |
| ScoreSettings.SyncStats | assets/js/adventureGame/scoreSettings.js:22-24 | the control's statistics, when present, replace the menu's; otherwise the menu is unchanged |
| ScoreSettings.BuildDto | assets/js/adventureGame/scoreSettings.js:17-41 | the user is `guest` and the status `PAUSED`; the game name comes from the settings; the variable name and counter field are `counterVar`; the menu is left synced |
| ScoreSettings.ScoreIsCounter | assets/js/adventureGame/scoreSettings.js:8-10 | when `scoreVar` equals `counterVar`, the score equals the counter |
| ScoreSettings.GamesScoreByCounter | assets/js/mansionGame/scoreSettings.js:7-10 | the adventure game scores by `coinsCollected` and the mansion game by `levelsCompleted` |
| ScoreSettings.ScoreFromTruthyField | assets/js/mansionGame/scoreSettings.js:31 | the score is `Number` of the score field when it is truthy and 0 otherwise; a nonzero number is taken as it is |
| ScoreSettings.ControlStatsTakePrecedence | assets/js/mansionGame/scoreSettings.js:22-24 | once the control has statistics, the menu's own are never read, and the menu ends up holding the control's |
| ScoreSettings.BuildDtoIdempotent | assets/js/mansionGame/scoreSettings.js:17-41 | building again from the synced menu gives the same DTO and the same menu |
| ScoreSettings.SessionTimeFirstTruthy | assets/js/mansionGame/scoreSettings.js:27-33 | `sessionTime` comes from the first truthy of `sessionTime`, `elapsedMs`, `timePlayed`, coerced by `Number(...) \|\| 0` |
| ScoreSettings.SessionTimeDefault | assets/js/adventureGame/scoreSettings.js:27-33 | with none of the three fields truthy, `sessionTime` is 0 |
| ScoreSettings.SessionTimeMaskedByText | assets/js/adventureGame/scoreSettings.js:27-33 | a truthy non-numeric `sessionTime` hides the later fields and yields 0 |
| ScoreSettings.TotalPowerUpsDefault | assets/js/adventureGame/scoreSettings.js:34 | `totalPowerUps` is the field's numeric value, and 0 when it is missing or not a number |

## Left out

- DOM construction, CSS injection, markup strings and listener binding are left out. The page is reduced to the `Dom` record and the list region to a `ListView` of row data. The shared style element injected once is not modelled.
- Element lookup by fixed document-wide ids is not modelled. Each widget owns its own `Dom`, so several instances cannot interfere as they can in the page.
- Network I/O is not modelled: `fetch`, the choice of the backend base URL, credentials and headers. Each request and its completion form one step, and the reply is an input.
- Async interleavings are not modelled: a second click while a request is in flight, or a dynamic poll that completes after "back". In the code such a completion still redraws the list (line 676 checks the mode only before sending).
- The 30-second `setInterval` period is only a constant. A timer tick is an event that can happen whenever a timer runs.
- Alert and confirm texts are reduced to an alert kind and a boolean answer. The network-error alert is chosen by the browser's `Failed to fetch` message, which is taken to appear exactly for unreachable servers.
- `toLocaleString` formatting of scores is left out; rows carry the raw integer.
- JsValue.ToNumber: every object is taken to convert to NaN. `Number` of an array, a `Date` or an object with `valueOf` can give a number instead, so `NumberOrZero` and `BuildDto` give 0 where the code can give that number. The `0b` and `0o` prefixes that `Number` accepts are not modelled either.
- Numbers are integers or NaN. Fractions, exponents, `Infinity`, the `0x` prefix of `parseInt` and `Number`, and double-precision rounding are not modelled. A `type="number"` field yields none of these as an integer score.
- Leaderboard.GlobalRows: entry fields holding `null` (which `String` renders as `"null"`) are not modelled; a field is a string or missing.
- Leaderboard.FetchElementary: a response body that is not an array is not modelled; the elementary reply is a sequence of entries.
- Leaderboard.AddElementaryScore: clearing the two input fields after a save is not modelled. The refetch that follows redraws fresh, empty fields.
- The rest of `_createTopControls` in Game.js is left out: the save-score, skip-level and leaderboard-visibility buttons. These call into features whose source is not part of this model.
- `initUser`'s request chain and the dynamic `import()` of the leaderboard module are left out. The leaderboard creation is `MansionCore.CreateLeaderboard`.
- MansionCore.SetWorkingLevels: aliasing between the snapshot and the control's level array is not modelled. Both are values here, and `Game.js` copies the array on both sides (lines 17-20), so no change through one can reach the other.
- MansionCore.New: the engine's `GameControl` constructor and `start()` are not part of this model. The control is taken to begin at level 0, unpaused, with no level running.
- MansionCore.PressPause: what `pause()` and `resume()` do inside `GameControl` is not visible. The model takes them to set and clear `isPaused` (`MansionCore.Apply`).
- MansionCore.ReturnHome: exceptions raised inside a level's `destroy` or the control's clean-up are not modelled. Only a missing `cleanupInteractionHandlers` method is, which the `try` block swallows.
- `destroy()` and `transitionToLevel()` are recorded as calls. Their effect on the running level is the engine's and is not modelled.
- `PauseFeature._handleKeyDown` is a no-op and is not modelled.
- The statistics object is a map from field names to values; a non-object `stats` value is not modelled. `counterLabel`, `storageKey` and `counterPerLevel` appear only as constants. `console.log` output is not modelled.
- `Coin.js` is not part of this model. It relies on floating-point distance, random respawn and canvas drawing in engine classes (`Transform`, `GameObject`) that are outside this model.

=== FILE: html_escape.dfy ===
/**
 * The leaderboard's `escape`: each of the five HTML-significant characters
 * `& < > " '` is replaced by its character reference, everything else is
 * copied. `Unescape` is its inverse and serves as the reference against which
 * the escaping is checked.
 */
module HtmlEscape {
  import opened Wrappers

  predicate IsSpecial(c: char) {
    c == '&' || c == '<' || c == '>' || c == '"' || c == '\''
  }

  /** The replacement table of `escape`'s regular-expression callback. */
  function EscapeChar(c: char): string {
    match c
    case '&' => "&amp;"
    case '<' => "&lt;"
    case '>' => "&gt;"
    case '"' => "&quot;"
    case '\'' => "&#039;"
    case _ => [c]
  }

  /** `p` occurs in `s` starting at position `i`. */
  predicate PrefixAt(p: string, s: string, i: nat) {
    i + |p| <= |s| && s[i..i + |p|] == p
  }

  /** Position `i` of `s` begins one of the five character references. */
  predicate EntityAt(s: string, i: nat) {
    PrefixAt("&amp;", s, i) || PrefixAt("&lt;", s, i) || PrefixAt("&gt;", s, i)
    || PrefixAt("&quot;", s, i) || PrefixAt("&#039;", s, i)
  }

  /** Safe for insertion as markup text: no raw `< > " '` and every `&` starts a reference. */
  predicate WellEscaped(s: string) {
    && (forall i :: 0 <= i < |s| ==> s[i] != '<' && s[i] != '>' && s[i] != '"' && s[i] != '\'')
    && (forall i :: 0 <= i < |s| && s[i] == '&' ==> EntityAt(s, i))
  }

  lemma EntityAtAppend(a: string, b: string, i: nat)
    requires EntityAt(a, i)
    ensures EntityAt(a + b, i)
  {
    var s := a + b;
    forall p | p in ["&amp;", "&lt;", "&gt;", "&quot;", "&#039;"] && PrefixAt(p, a, i)
      ensures PrefixAt(p, s, i)
    {
      assert s[i..i + |p|] == a[i..i + |p|];
    }
  }

  lemma EntityAtPrepend(a: string, b: string, i: nat)
    requires EntityAt(b, i)
    ensures EntityAt(a + b, |a| + i)
  {
    var s := a + b;
    forall p | p in ["&amp;", "&lt;", "&gt;", "&quot;", "&#039;"] && PrefixAt(p, b, i)
      ensures PrefixAt(p, s, |a| + i)
    {
      assert s[|a| + i..|a| + i + |p|] == b[i..i + |p|];
    }
  }

  /** Well-escaped pieces concatenate to a well-escaped string. */
  lemma WellEscapedConcat(a: string, b: string)
    requires WellEscaped(a) && WellEscaped(b)
    ensures WellEscaped(a + b)
  {
    var s := a + b;
    forall i | 0 <= i < |s| ensures s[i] != '<' && s[i] != '>' && s[i] != '"' && s[i] != '\'' {
      if i < |a| {
        assert s[i] == a[i];
      } else {
        assert s[i] == b[i - |a|];
      }
    }
    forall i | 0 <= i < |s| && s[i] == '&' ensures EntityAt(s, i) {
      if i < |a| {
        assert a[i] == '&';
        EntityAtAppend(a, b, i);
      } else {
        assert b[i - |a|] == '&';
        EntityAtPrepend(a, b, i - |a|);
      }
    }
  }

  lemma EscapeCharWellEscaped(c: char)
    ensures WellEscaped(EscapeChar(c))
  {
    var e := EscapeChar(c);
    if c == '&' {
      assert PrefixAt("&amp;", e, 0);
    } else if c == '<' {
      assert PrefixAt("&lt;", e, 0);
    } else if c == '>' {
      assert PrefixAt("&gt;", e, 0);
    } else if c == '"' {
      assert PrefixAt("&quot;", e, 0);
    } else if c == '\'' {
      assert PrefixAt("&#039;", e, 0);
    }
  }

  /** `escape(str)`: the result is safe markup text, and a string with nothing to escape comes back as it was. */
  function Escape(s: string): (r: string)
    ensures WellEscaped(r)
    ensures |r| >= |s|
    ensures (forall i :: 0 <= i < |s| ==> !IsSpecial(s[i])) ==> r == s
  {
    if s == [] then []
    else
      var head := EscapeChar(s[0]);
      var tail := Escape(s[1..]);
      EscapeCharWellEscaped(s[0]);
      WellEscapedConcat(head, tail);
      assert s == [s[0]] + s[1..];
      head + tail
  }

  /** `escape(str = '')`: an absent argument escapes to the empty string. */
  function EscapeOptional(v: Option<string>): (r: string)
    ensures WellEscaped(r)
    ensures v.None? ==> r == []
    ensures v.Some? ==> r == Escape(v.value) && Unescape(r) == v.value
  {
    match v
    case None => []
    case Some(s) => UnescapeEscape(s); Escape(s)
  }

  /** Decodes the five character references; any other character is copied. */
  function Unescape(r: string): string
    decreases |r|
  {
    if r == [] then []
    else if PrefixAt("&amp;", r, 0) then "&" + Unescape(r[5..])
    else if PrefixAt("&lt;", r, 0) then "<" + Unescape(r[4..])
    else if PrefixAt("&gt;", r, 0) then ">" + Unescape(r[4..])
    else if PrefixAt("&quot;", r, 0) then "\"" + Unescape(r[6..])
    else if PrefixAt("&#039;", r, 0) then "'" + Unescape(r[6..])
    else [r[0]] + Unescape(r[1..])
  }

  lemma UnescapeCons(c: char, rest: string)
    ensures Unescape(EscapeChar(c) + rest) == [c] + Unescape(rest)
  {
    var r := EscapeChar(c) + rest;
    var e := EscapeChar(c);
    assert r[..|e|] == e;
    assert r[|e|..] == rest;
    if c != '&' && c != '<' && c != '>' && c != '"' && c != '\'' {
      assert r[0] == c;
      assert !PrefixAt("&amp;", r, 0) && !PrefixAt("&lt;", r, 0) && !PrefixAt("&gt;", r, 0);
      assert !PrefixAt("&quot;", r, 0) && !PrefixAt("&#039;", r, 0);
    } else if c == '&' {
      assert PrefixAt("&amp;", r, 0);
    } else if c == '<' {
      assert r[1] == e[1];
      assert !PrefixAt("&amp;", r, 0) && PrefixAt("&lt;", r, 0);
    } else if c == '>' {
      assert r[1] == e[1];
      assert !PrefixAt("&amp;", r, 0) && !PrefixAt("&lt;", r, 0) && PrefixAt("&gt;", r, 0);
    } else if c == '"' {
      assert r[1] == e[1];
      assert !PrefixAt("&amp;", r, 0) && !PrefixAt("&lt;", r, 0) && !PrefixAt("&gt;", r, 0);
      assert PrefixAt("&quot;", r, 0);
    } else {
      assert r[1] == e[1];
      assert !PrefixAt("&amp;", r, 0) && !PrefixAt("&lt;", r, 0) && !PrefixAt("&gt;", r, 0);
      assert !PrefixAt("&quot;", r, 0) && PrefixAt("&#039;", r, 0);
    }
  }

  /** Escaping loses nothing: decoding the escaped text gives back the original. */
  lemma {:induction false} UnescapeEscape(s: string)
    ensures Unescape(Escape(s)) == s
  {
    if s != [] {
      UnescapeCons(s[0], Escape(s[1..]));
      UnescapeEscape(s[1..]);
      assert [s[0]] + s[1..] == s;
    }
  }

  /** Escaping is injective: two names that render alike are the same name. */
  lemma EscapeInjective(s: string, t: string)
    requires Escape(s) == Escape(t)
    ensures s == t
  {
    UnescapeEscape(s);
    UnescapeEscape(t);
  }

  /** Escaping works character by character, so it distributes over concatenation. */
  lemma {:induction false} EscapeAppend(a: string, b: string)
    ensures Escape(a + b) == Escape(a) + Escape(b)
  {
    if a == [] {
      assert a + b == b;
    } else {
      assert (a + b)[0] == a[0];
      assert (a + b)[1..] == a[1..] + b;
      EscapeAppend(a[1..], b);
    }
  }

  lemma EscapeSingle(c: char)
    ensures Escape([c]) == EscapeChar(c)
  {
    assert [c][1..] == [];
  }

  /** Text without special characters passes through escaping untouched, whatever surrounds it. */
  lemma EscapeAround(a: string, name: string, b: string)
    requires forall i :: 0 <= i < |name| ==> !IsSpecial(name[i])
    ensures Escape(a + name + b) == Escape(a) + name + Escape(b)
  {
    EscapeAppend(a + name, b);
    EscapeAppend(a, name);
  }

  lemma EscapeAngles()
    ensures Escape(['<']) == "&lt;" && Escape(['>']) == "&gt;"
  {
    EscapeSingle('<');
    EscapeSingle('>');
  }

  /** A tag such as `<script>` in a player name becomes inert text: only its brackets change. */
  lemma TagIsNeutralised(name: string)
    requires forall i :: 0 <= i < |name| ==> !IsSpecial(name[i])
    ensures Escape(['<'] + name + ['>']) == "&lt;" + name + "&gt;"
  {
    EscapeAround(['<'], name, ['>']);
    EscapeAngles();
  }

}

=== FILE: js_text.dfy ===
/**
 * The two string primitives the leaderboard form relies on:
 * `String.prototype.trim` and `parseInt` with no radix, over decimal input.
 */
module JsText {
  import opened Wrappers

  /** WhiteSpace and LineTerminator code points of ECMA-262 (sections 12.2 and 12.3). */
  predicate IsSpace(c: char) {
    || c == ' ' || c == '\t' || c == '\n' || c == '\r'
    || c == '\U{000B}' || c == '\U{000C}' || c == '\U{00A0}' || c == '\U{1680}'
    || ('\U{2000}' <= c <= '\U{200A}')
    || c == '\U{2028}' || c == '\U{2029}' || c == '\U{202F}' || c == '\U{205F}'
    || c == '\U{3000}' || c == '\U{FEFF}'
  }

  predicate IsDigit(c: char) {
    '0' <= c <= '9'
  }

  function DigitValue(c: char): nat
    requires IsDigit(c)
  {
    (c as int) - ('0' as int)
  }

  function DigitChar(d: nat): (c: char)
    requires d < 10
    ensures IsDigit(c) && DigitValue(c) == d
  {
    (('0' as int) + d) as char
  }

  predicate AllSpace(s: string) {
    forall i :: 0 <= i < |s| ==> IsSpace(s[i])
  }

  /** Drops leading white space: the result is the suffix of `s` that starts at its first non-space. */
  function TrimStart(s: string): (r: string)
    ensures |r| <= |s| && r == s[|s| - |r|..]
    ensures r == [] || !IsSpace(r[0])
    ensures AllSpace(s[..|s| - |r|])
  {
    if s == [] || !IsSpace(s[0]) then s
    else
      var r := TrimStart(s[1..]);
      assert s[1..][..|s[1..]| - |r|] == s[1..|s| - |r|];
      r
  }

  /** Drops trailing white space: the result is the prefix of `s` that ends at its last non-space. */
  function TrimEnd(s: string): (r: string)
    ensures |r| <= |s| && r == s[..|r|]
    ensures r == [] || !IsSpace(r[|r| - 1])
    ensures AllSpace(s[|r|..])
  {
    if s == [] || !IsSpace(s[|s| - 1]) then s
    else
      var r := TrimEnd(s[..|s| - 1]);
      assert s[..|s| - 1][|r|..] == s[|r|..|s| - 1];
      r
  }

  /** `String.prototype.trim`: the field with its leading and trailing white space cut off, and no white space left at either end. */
  function Trim(s: string): (r: string)
    ensures |r| <= |s|
    ensures r == [] || (!IsSpace(r[0]) && !IsSpace(r[|r| - 1]))
    ensures exists i, j :: 0 <= i <= j <= |s| && r == s[i..j] && AllSpace(s[..i]) && AllSpace(s[j..])
  {
    var t := TrimStart(s);
    var r := TrimEnd(t);
    var i := |s| - |t|;
    var j := i + |r|;
    assert r == s[i..j];
    assert s[j..] == t[|r|..];
    r
  }

  /** A string trims to the empty string exactly when it is all white space. */
  lemma TrimEmptyIffAllSpace(s: string)
    ensures Trim(s) == [] <==> AllSpace(s)
  {
    var t := TrimStart(s);
    assert t[0..] == t;
    if AllSpace(s) {
      assert AllSpace(t);
    }
    if Trim(s) == [] {
      assert AllSpace(t);
      assert s[..|s|] == s;
    }
  }

  /** Trimming a trimmed string changes nothing. */
  lemma TrimIdempotent(s: string)
    ensures Trim(Trim(s)) == Trim(s)
  {
    var r := Trim(s);
    assert TrimStart(r) == r;
    assert TrimEnd(r) == r;
  }

  /** The longest prefix of `s` made of decimal digits. */
  function DigitPrefix(s: string): (ds: string)
    ensures |ds| <= |s| && ds == s[..|ds|]
    ensures forall i :: 0 <= i < |ds| ==> IsDigit(ds[i])
    ensures |ds| == |s| || !IsDigit(s[|ds|])
  {
    if s == [] || !IsDigit(s[0]) then []
    else [s[0]] + DigitPrefix(s[1..])
  }

  /** The value of a decimal numeral, most significant digit first. */
  function DigitsValue(ds: string): nat
    requires forall i :: 0 <= i < |ds| ==> IsDigit(ds[i])
  {
    if ds == [] then 0
    else DigitsValue(ds[..|ds| - 1]) * 10 + DigitValue(ds[|ds| - 1])
  }

  /** The value of the longest run of digits at the start of `u`, if there is one. */
  function ReadDigits(u: string): Option<nat> {
    var ds := DigitPrefix(u);
    if ds == [] then None else Some(DigitsValue(ds))
  }

  /** The part of `parseInt` after the white space: one optional sign, then the digits. */
  function ParseSigned(t: string): Option<int> {
    if t == [] then None
    else if t[0] == '-' then
      match ReadDigits(t[1..])
      case None => None
      case Some(m) => Some(-(m as int))
    else if t[0] == '+' then
      match ReadDigits(t[1..])
      case None => None
      case Some(m) => Some(m as int)
    else
      match ReadDigits(t)
      case None => None
      case Some(m) => Some(m as int)
  }

  /**
   * `parseInt(s)` for decimal input: leading white space and one sign are
   * skipped, then the longest run of digits is read; `None` stands for NaN.
   */
  function ParseInt(s: string): Option<int> {
    ParseSigned(TrimStart(s))
  }

  /** The decimal numeral of `n`, without leading zeros. */
  function NatToDecimal(n: nat): (ds: string)
    ensures |ds| > 0
    ensures forall i :: 0 <= i < |ds| ==> IsDigit(ds[i])
    decreases n
  {
    if n < 10 then [DigitChar(n)]
    else NatToDecimal(n / 10) + [DigitChar(n % 10)]
  }

  /** How an integer is written in decimal: a minus sign for negatives. */
  function IntToDecimal(n: int): string {
    if n < 0 then "-" + NatToDecimal(-n) else NatToDecimal(n)
  }

  lemma {:induction false} DigitsValueOfDecimal(n: nat)
    ensures DigitsValue(NatToDecimal(n)) == n
    decreases n
  {
    if n >= 10 {
      var ds := NatToDecimal(n);
      assert ds[..|ds| - 1] == NatToDecimal(n / 10);
      DigitsValueOfDecimal(n / 10);
    }
  }

  lemma {:induction false} DigitPrefixOfDigits(ds: string)
    requires forall i :: 0 <= i < |ds| ==> IsDigit(ds[i])
    ensures DigitPrefix(ds) == ds
  {
    if ds != [] {
      DigitPrefixOfDigits(ds[1..]);
      assert [ds[0]] + ds[1..] == ds;
    }
  }

  /** Reading back a written integer gives that integer: `parseInt(String(n)) === n`. */
  lemma ParseIntOfDecimal(n: int)
    ensures ParseInt(IntToDecimal(n)) == Some(n)
  {
    if n < 0 {
      ParseIntOfNegative(n);
    } else {
      ParseIntOfNatural(n);
    }
  }

  /** A string that does not start with white space is its own `TrimStart`. */
  lemma TrimStartOfNonSpace(s: string)
    requires s != [] && !IsSpace(s[0])
    ensures TrimStart(s) == s
  {
  }

  /** A string that neither starts nor ends with white space is its own `trim`. */
  lemma TrimOfUnpadded(s: string)
    requires s != [] && !IsSpace(s[0]) && !IsSpace(s[|s| - 1])
    ensures Trim(s) == s
  {
    TrimStartOfNonSpace(s);
    assert TrimEnd(s) == s;
  }

  /** A written integer has no white space to trim. */
  lemma TrimOfDecimal(n: int)
    ensures Trim(IntToDecimal(n)) == IntToDecimal(n)
  {
    var s := IntToDecimal(n);
    var m: nat := if n < 0 then -n else n;
    var ds := NatToDecimal(m);
    assert s[|s| - 1] == ds[|ds| - 1] && IsDigit(s[|s| - 1]);
    assert s[0] == '-' || IsDigit(s[0]);
    TrimOfUnpadded(s);
  }

  /** The digit run of `ds + rest` stops where `ds` ends when `rest` does not start with a digit. */
  lemma {:induction false} DigitPrefixOfDigitsThen(ds: string, rest: string)
    requires forall i :: 0 <= i < |ds| ==> IsDigit(ds[i])
    requires rest == [] || !IsDigit(rest[0])
    ensures DigitPrefix(ds + rest) == ds
  {
    if ds == [] {
      assert ds + rest == rest;
    } else {
      assert (ds + rest)[1..] == ds[1..] + rest;
      DigitPrefixOfDigitsThen(ds[1..], rest);
      assert [ds[0]] + ds[1..] == ds;
    }
  }

  /** `parseInt` reads the leading digits and ignores whatever non-digit text follows them. */
  lemma ParseIntOfDigitsThen(ds: string, rest: string)
    requires ds != [] && forall i :: 0 <= i < |ds| ==> IsDigit(ds[i])
    requires rest == [] || !IsDigit(rest[0])
    ensures ParseInt(ds + rest) == Some(DigitsValue(ds))
  {
    var t := ds + rest;
    assert t[0] == ds[0] && IsDigit(t[0]);
    TrimStartOfNonSpace(t);
    DigitPrefixOfDigitsThen(ds, rest);
    assert ReadDigits(t) == Some(DigitsValue(ds));
    assert t[0] != '-' && t[0] != '+';
    assert ParseSigned(t) == Some(DigitsValue(ds) as int);
  }

  lemma ParseIntOfNatural(m: nat)
    ensures ParseInt(IntToDecimal(m)) == Some(m)
  {
    var ds := NatToDecimal(m);
    assert IntToDecimal(m) == ds;
    DigitsValueOfDecimal(m);
    ReadDigitsOfDigits(ds);
    assert IsDigit(ds[0]);
    TrimStartOfNonSpace(ds);
  }

  /** A run of digits reads as its value. */
  lemma ReadDigitsOfDigits(ds: string)
    requires forall i :: 0 <= i < |ds| ==> IsDigit(ds[i])
    requires ds != []
    ensures ReadDigits(ds) == Some(DigitsValue(ds))
  {
    DigitPrefixOfDigits(ds);
  }

  /** A minus sign followed by digits reads as the negated value of the digits. */
  lemma ParseSignedOfMinusDigits(ds: string)
    requires forall i :: 0 <= i < |ds| ==> IsDigit(ds[i])
    requires ds != []
    ensures ParseSigned(['-'] + ds) == Some(-(DigitsValue(ds) as int))
  {
    var t := ['-'] + ds;
    assert t[1..] == ds;
    ReadDigitsOfDigits(ds);
    assert t != [] && t[0] == '-';
    assert ReadDigits(t[1..]) == Some(DigitsValue(ds));
  }

  lemma ParseIntOfNegative(n: int)
    requires n < 0
    ensures ParseInt(IntToDecimal(n)) == Some(n)
  {
    var m: nat := -n;
    var ds := NatToDecimal(m);
    assert IntToDecimal(n) == "-" + ds;
    DigitsValueOfDecimal(m);
    ParseSignedOfMinusDigits(ds);
    var t := ['-'] + ds;
    assert t[0] == '-';
    TrimStartOfNonSpace(t);
    assert "-" + ds == t;
  }

  /** A string without a single decimal digit parses to NaN. */
  lemma ParseIntNeedsDigit(s: string)
    requires forall i :: 0 <= i < |s| ==> !IsDigit(s[i])
    ensures ParseInt(s).None?
  {
    var t := TrimStart(s);
    var u := if |t| > 0 && (t[0] == '-' || t[0] == '+') then t[1..] else t;
    assert u == s[|s| - |u|..];
    assert u == [] || u[0] == s[|s| - |u|];
    assert DigitPrefix(u) == [];
  }
}

=== FILE: js_value.dfy ===
/**
 * The slice of JavaScript's value semantics the score DTO builders depend on:
 * truthiness, `Number(...)` coercion and the value-returning `||`.
 * Numbers are integers or NaN.
 */
module JsValue {
  import opened Wrappers
  import JsText

  datatype Num = Int(i: int) | NaN

  datatype Value =
    | Undefined
    | Null
    | Boolean(b: bool)
    | Numeric(n: Num)
    | Text(s: string)
    | Object

  /** ToBoolean: `undefined`, `null`, `false`, `0`, `NaN` and `""` are falsy. */
  predicate Truthy(v: Value) {
    match v
    case Undefined => false
    case Null => false
    case Boolean(b) => b
    case Numeric(n) => n.Int? && n.i != 0
    case Text(s) => s != []
    case Object => true
  }

  /**
   * `Number(s)` for a string: surrounding white space is ignored, the empty
   * string is 0, an optionally signed run of decimal digits is its value,
   * anything else is NaN.
   */
  function StringToNumber(s: string): (n: Num)
    ensures JsText.AllSpace(s) ==> n == Int(0)
    ensures n.NaN? <==> !JsText.AllSpace(s) && !IsNumeral(JsText.Trim(s))
  {
    JsText.TrimEmptyIffAllSpace(s);
    NumberOfTrimmed(JsText.Trim(s))
  }

  /** The digits after an optional leading sign. */
  function Unsigned(t: string): string {
    if t != [] && (t[0] == '-' || t[0] == '+') then t[1..] else t
  }

  /** An optionally signed, non-empty run of decimal digits and nothing else. */
  predicate IsNumeral(t: string) {
    var digits := Unsigned(t);
    digits != [] && forall i :: 0 <= i < |digits| ==> JsText.IsDigit(digits[i])
  }

  /** `Number` of an already trimmed string. */
  function NumberOfTrimmed(t: string): (n: Num)
    ensures t != [] ==> (n.NaN? <==> !IsNumeral(t))
  {
    if t == [] then Int(0)
    else if IsNumeral(t) then
      var magnitude: int := JsText.DigitsValue(Unsigned(t));
      Int(if t[0] == '-' then -magnitude else magnitude)
    else NaN
  }

  /** `Number(v)`; an object is taken to convert to NaN. */
  function ToNumber(v: Value): Num {
    match v
    case Undefined => NaN
    case Null => Int(0)
    case Boolean(b) => Int(if b then 1 else 0)
    case Numeric(n) => n
    case Text(s) => StringToNumber(s)
    case Object => NaN
  }

  /** `a || b`: the left operand when it is truthy, otherwise the right one. */
  function Or(a: Value, b: Value): (r: Value)
    ensures Truthy(r) <==> Truthy(a) || Truthy(b)
    ensures r == a || r == b
    ensures Truthy(a) ==> r == a
  {
    if Truthy(a) then a else b
  }

  /** `Number(v) || 0`: the numeric value of `v`, with NaN (and 0) giving 0. */
  function NumberOrZero(v: Value): (r: int)
    ensures ToNumber(v).NaN? ==> r == 0
    ensures ToNumber(v).Int? ==> r == ToNumber(v).i
  {
    var n := ToNumber(v);
    if n.Int? && n.i != 0 then n.i else 0
  }

  /** Writing an integer as a string and converting it back with `Number` gives the integer. */
  lemma StringToNumberOfDecimal(n: int)
    ensures StringToNumber(JsText.IntToDecimal(n)) == Int(n)
  {
    var s := JsText.IntToDecimal(n);
    JsText.TrimOfDecimal(n);
    NumberOfTrimmedDecimal(n);
  }

  lemma NumberOfTrimmedDecimal(n: int)
    ensures NumberOfTrimmed(JsText.IntToDecimal(n)) == Int(n)
  {
    var m: nat := if n < 0 then -n else n;
    var ds := JsText.NatToDecimal(m);
    JsText.DigitsValueOfDecimal(m);
    var s := JsText.IntToDecimal(n);
    if n < 0 {
      assert s[0] == '-' && s[1..] == ds;
    } else {
      assert s == ds && JsText.IsDigit(s[0]);
    }
  }

  /**
   * Where `Number` and `parseInt` part ways: digits followed by any other
   * non-space character (as in `"12px"`) are NaN to `Number`, while
   * `parseInt` reads the leading digits.
   */
  lemma NumberRejectsTrailingText(ds: string, c: char)
    requires ds != [] && forall i :: 0 <= i < |ds| ==> JsText.IsDigit(ds[i])
    requires !JsText.IsDigit(c) && !JsText.IsSpace(c)
    ensures StringToNumber(ds + [c]).NaN?
    ensures JsText.ParseInt(ds + [c]) == Some(JsText.DigitsValue(ds))
  {
    var t := ds + [c];
    assert t[0] == ds[0] && t[|t| - 1] == c;
    JsText.TrimOfUnpadded(t);
    assert Unsigned(t) == t && !JsText.IsDigit(t[|t| - 1]);
    JsText.ParseIntOfDigitsThen(ds, [c]);
  }
}

=== FILE: leaderboard.dfy ===
/**
 * The leaderboard widget: mounting, the open/closed header, the choice
 * between the polled global ("dynamic") board and the per-game
 * ("elementary") board with its add and delete actions, and teardown.
 *
 * Each network request and its completion form one step; the outcome of the
 * request is an input (`Reply`). The answer to the delete confirmation is an
 * input too. The page is reduced to the few things the widget changes on it
 * (`Dom`); the interval timers of the page are `Timers`.
 */
module Leaderboard {
  import opened Wrappers
  import JsText
  import HtmlEscape

  const DefaultGameName := "Global"
  const PreviewPlaceholder := "Collapse to choose a leaderboard"
  const OpenButtonText := "\U{2212}"
  const ClosedButtonText := "+"
  const RefreshPeriodMs := 30000

  datatype Mode = NoMode | Dynamic | Elementary

  /** A record of `GET /api/elementary-leaderboard`. */
  datatype ElementaryEntry = ElementaryEntry(id: int, user: string, score: int)

  /** A record of `GET /api/leaderboard`: the player and the game each come under one of two keys, either possibly missing. */
  datatype GlobalEntry = GlobalEntry(user: Option<string>, username: Option<string>, gameName: Option<string>, game: Option<string>, score: int)

  /** The parsed body of `GET /api/leaderboard`, which need not be an array. */
  datatype GlobalData = NotAnArray | Entries(entries: seq<GlobalEntry>)

  /** The body of `POST /api/elementary-leaderboard`; there is no identifier field. */
  datatype Payload = Payload(user: string, score: int, gameName: string)

  datatype Request = GetGlobal | GetElementary | PostElementary(body: Payload) | DeleteElementary(id: int)

  /** Why a request failed: no connection, a non-2xx status, or a body that is not JSON. */
  datatype Failure = Unreachable | Status(code: int) | BadBody

  datatype Reply<T> = Ok(value: T) | Failed(why: Failure)

  datatype AlertKind = MissingInput | ServerUnreachable | SaveFailed | DeleteFailed

  /** What the widget does to the outside world, in order. */
  datatype Effect = Send(request: Request) | Alert(kind: AlertKind)

  /** The compact header label shown while the widget is collapsed. */
  datatype Preview = Placeholder | HighScore(player: string, score: int)

  datatype ElementaryRow = ElementaryRow(rank: nat, player: string, score: int, deleteId: int)

  datatype GlobalRow = GlobalRow(rank: nat, player: string, game: string, score: int)

  /** What the list region shows. `ElementaryBoard` always carries the add form below its rows. */
  datatype ListView =
    | Blank
    | Selection
    | Loading
    | FirstEntryForm
    | ElementaryBoard(elementaryRows: seq<ElementaryRow>)
    | GlobalBoard(globalRows: seq<GlobalRow>)
    | NoScores
    | LoadError

  /** The widget's node in the page. */
  datatype Dom = Dom(
    embedded: bool,
    displayed: bool,
    contentHidden: bool,
    toggleText: string,
    titleShown: bool,
    previewShown: bool,
    preview: Preview,
    backShown: bool,
    list: ListView)

  /** The page's interval timers: the handles still running, and the next handle `setInterval` returns. */
  datatype Timers = Timers(active: set<nat>, next: nat)

  datatype Widget = Widget(
    gameName: string,
    parentId: Option<string>,
    awaitingReady: bool,
    mounted: bool,
    isOpen: bool,
    mode: Mode,
    showingTypeSelection: bool,
    refreshInterval: Option<nat>,
    elementaryEntries: seq<ElementaryEntry>,
    dom: Option<Dom>,
    timers: Timers)

  datatype Out = Out(widget: Widget, effects: seq<Effect>)

  /** The widget fields that choosing and leaving a board never touch. */
  predicate SameSettings(a: Widget, b: Widget) {
    && a.gameName == b.gameName && a.parentId == b.parentId
    && a.awaitingReady == b.awaitingReady && a.mounted == b.mounted && a.isOpen == b.isOpen
  }

  /** `r` is still on the page when `w` was, with the same header. */
  predicate KeepsHeader(r: Widget, w: Widget) {
    w.dom.Some? ==> r.dom.Some? && SameHeader(r.dom.value, w.dom.value)
  }

  /** The board choice, the poll and the cache are as they were. */
  predicate SameProgress(a: Widget, b: Widget) {
    && a.mode == b.mode && a.showingTypeSelection == b.showingTypeSelection
    && a.refreshInterval == b.refreshInterval && a.timers == b.timers
  }

  /** The back button is shown in `r` exactly when it was in `w`. */
  predicate KeepsBack(r: Widget, w: Widget) {
    w.dom.Some? ==> r.dom.Some? && r.dom.value.backShown == w.dom.value.backShown
  }

  /** The header part of the page: frame, visibility, toggle button, title and preview slots. */
  predicate SameHeader(a: Dom, b: Dom) {
    && a.embedded == b.embedded && a.displayed == b.displayed && a.contentHidden == b.contentHidden
    && a.toggleText == b.toggleText && a.titleShown == b.titleShown && a.previewShown == b.previewShown
  }

  // ---------------------------------------------------------------- helpers

  /** Replaces the list region, when the widget is on the page. */
  function SetList(w: Widget, view: ListView): (r: Widget)
    ensures w.dom.Some? ==> r.dom == Some(w.dom.value.(list := view))
    ensures w.dom.None? ==> r == w
    ensures r.(dom := w.dom) == w
    ensures SameSettings(r, w) && KeepsHeader(r, w)
  {
    if w.dom.Some? then w.(dom := Some(w.dom.value.(list := view))) else w
  }

  /** JavaScript `a || b` over optional strings: the empty string is falsy. */
  function FirstTruthy(a: Option<string>, b: Option<string>): (r: Option<string>)
    ensures a.Some? && a.value != [] ==> r == a
    ensures a.None? || a.value == [] ==> r == b
  {
    if a.Some? && a.value != [] then a else b
  }

  /** A value interpolated into a template literal: a missing one prints as `undefined`. */
  function Interpolate(v: Option<string>): string {
    v.GetOr("undefined")
  }

  // ---------------------------------------------------------------- lifecycle

  /** The widget's node as `mount` inserts it: collapsed, title shown, preview hidden, list empty. */
  function FreshDom(embedded: bool): Dom {
    Dom(embedded, true, true, ClosedButtonText, true, false, Placeholder, false, Blank)
  }

  /** `showTypeSelection()`: offer the two boards, if the list region exists. */
  function ShowTypeSelection(w: Widget): (r: Widget)
    ensures w.dom.Some? ==> r.dom.Some? && r.dom.value.list == Selection
    ensures r == SetList(w, Selection)
  {
    SetList(w, Selection)
  }

  /** `mount()`: attach once, embedded in the host element when it is found, and show the type selection. */
  function Mount(w: Widget, hostFound: bool): (r: Widget)
    ensures w.mounted ==> r == w
    ensures !w.mounted ==>
      && r.mounted && r.dom.Some?
      && r.dom.value == FreshDom(w.parentId.Some? && hostFound).(list := Selection)
      && r.(mounted := w.mounted, dom := w.dom) == w
  {
    if w.mounted then w
    else ShowTypeSelection(w.(mounted := true, dom := Some(FreshDom(w.parentId.Some? && hostFound))))
  }

  /**
   * The constructor: `gameName` and `parentId` fall back when empty; without
   * a configured backend nothing further happens; otherwise the widget mounts
   * now, or when the document finishes loading.
   */
  function New(gameName: string, parentId: string, configured: bool, documentLoading: bool, hostFound: bool): (w: Widget)
    ensures w.gameName == (if gameName == [] then DefaultGameName else gameName)
    ensures w.parentId == (if parentId == [] then None else Some(parentId))
    ensures !w.isOpen && w.mode == NoMode && w.showingTypeSelection
    ensures w.elementaryEntries == [] && w.refreshInterval.None? && w.timers.active == {}
    ensures w.mounted <==> configured && !documentLoading
    ensures w.awaitingReady <==> configured && documentLoading
    ensures w.dom.Some? <==> configured && !documentLoading
    ensures w.dom.Some? ==> w.dom.value.embedded == (parentId != [] && hostFound) && w.dom.value.list == Selection
    ensures configured && !documentLoading ==> w == Mount(w.(mounted := false, dom := None), hostFound)
  {
    var initial := Widget(
      if gameName == [] then DefaultGameName else gameName,
      if parentId == [] then None else Some(parentId),
      false, false, false, NoMode, true, None, [], None, Timers({}, 1));
    if !configured then initial
    else if documentLoading then initial.(awaitingReady := true)
    else Mount(initial, hostFound)
  }

  /** The `DOMContentLoaded` listener registered by a constructor that ran while the document was loading. */
  function DocumentReady(w: Widget, hostFound: bool): (r: Widget)
    ensures !r.awaitingReady
    ensures w.awaitingReady ==> r == Mount(w.(awaitingReady := false), hostFound)
    ensures !w.awaitingReady ==> r == w
  {
    if w.awaitingReady then Mount(w.(awaitingReady := false), hostFound) else w
  }

  /** `toggle()`: open or collapse; after it exactly one of title and preview is visible. */
  function Toggle(w: Widget): (r: Widget)
    ensures r.isOpen == !w.isOpen
    ensures r.dom.Some? <==> w.dom.Some?
    ensures r.dom.Some? ==>
      && r.dom.value.titleShown == r.isOpen
      && r.dom.value.previewShown == !r.isOpen
      && r.dom.value.contentHidden == !r.isOpen
      && r.dom.value.toggleText == (if r.isOpen then OpenButtonText else ClosedButtonText)
      && r.dom.value.list == w.dom.value.list
      && r.dom.value.preview == w.dom.value.preview
    ensures r.(isOpen := w.isOpen, dom := w.dom) == w
  {
    var open := !w.isOpen;
    var dom := if w.dom.None? then None
      else Some(w.dom.value.(
        contentHidden := !open,
        toggleText := if open then OpenButtonText else ClosedButtonText,
        titleShown := open,
        previewShown := !open));
    w.(isOpen := open, dom := dom)
  }

  /** The header agrees with `isOpen`: true after any toggle, though not on a freshly mounted, collapsed widget. */
  predicate HeaderMatches(w: Widget) {
    w.dom.Some? ==>
      && w.dom.value.titleShown == w.isOpen
      && w.dom.value.previewShown == !w.isOpen
      && w.dom.value.contentHidden == !w.isOpen
      && w.dom.value.toggleText == (if w.isOpen then OpenButtonText else ClosedButtonText)
  }

  /** Toggling twice restores `isOpen`, and restores the whole widget once its header agrees with `isOpen`. */
  lemma ToggleTwice(w: Widget)
    ensures Toggle(Toggle(w)).isOpen == w.isOpen
    ensures HeaderMatches(w) ==> Toggle(Toggle(w)) == w
    ensures Toggle(Toggle(Toggle(w))) == Toggle(w)
  {
  }

  /** A freshly mounted widget is collapsed yet shows its title, not its preview. */
  lemma MountedHeaderShowsTitle(w: Widget, hostFound: bool)
    requires !w.mounted && !w.isOpen
    ensures Mount(w, hostFound).dom.value.titleShown && !Mount(w, hostFound).dom.value.previewShown
    ensures !HeaderMatches(Mount(w, hostFound))
  {
  }

  /** The timers once handle `h` is cleared. */
  function ClearTimer(t: Timers, h: nat): (r: Timers)
    ensures r.active == t.active - {h} && r.next == t.next
  {
    t.(active := t.active - {h})
  }

  /** `goBack()`: stop polling, forget the mode and show the type selection again; fetched entries are kept. */
  function GoBack(w: Widget): (r: Widget)
    ensures r.refreshInterval.None? && r.mode == NoMode && r.showingTypeSelection
    ensures w.refreshInterval.Some? ==> r.timers == ClearTimer(w.timers, w.refreshInterval.value)
    ensures w.refreshInterval.None? ==> r.timers == w.timers
    ensures r.elementaryEntries == w.elementaryEntries
    ensures r.dom.Some? <==> w.dom.Some?
    ensures r.dom.Some? ==>
      && !r.dom.value.backShown
      && r.dom.value.preview == Placeholder
      && r.dom.value.list == Selection
      && SameHeader(r.dom.value, w.dom.value)
    ensures SameSettings(r, w)
  {
    var timers := if w.refreshInterval.Some? then ClearTimer(w.timers, w.refreshInterval.value) else w.timers;
    var dom := if w.dom.None? then None
      else Some(w.dom.value.(backShown := false, preview := Placeholder, list := Selection));
    w.(refreshInterval := None, timers := timers, mode := NoMode, showingTypeSelection := true, dom := dom)
  }

  /** `destroy()`: stop the polling timer and take the widget off the page. The handle itself stays in `refreshInterval`. */
  function Destroy(w: Widget): (r: Widget)
    ensures r.dom.None?
    ensures w.refreshInterval.Some? ==> r.timers == ClearTimer(w.timers, w.refreshInterval.value)
    ensures w.refreshInterval.None? ==> r.timers == w.timers
    ensures r.(dom := w.dom, timers := w.timers) == w
  {
    var timers := if w.refreshInterval.Some? then ClearTimer(w.timers, w.refreshInterval.value) else w.timers;
    w.(dom := None, timers := timers)
  }

  /** Destroying twice is the same as destroying once. */
  lemma DestroyIdempotent(w: Widget)
    ensures Destroy(Destroy(w)) == Destroy(w)
  {
  }

  /** `toggleVisibility()`: hide or show the whole widget. */
  function ToggleVisibility(w: Widget): (r: Widget)
    ensures w.dom.Some? ==> IsVisible(r) == !IsVisible(w)
    ensures w.dom.Some? ==> r.dom == Some(w.dom.value.(displayed := !w.dom.value.displayed))
    ensures w.dom.None? ==> r == w
    ensures r.(dom := w.dom) == w
  {
    if w.dom.None? then w else w.(dom := Some(w.dom.value.(displayed := !w.dom.value.displayed)))
  }

  /** `isVisible()`: on the page and not hidden. `ToggleVisibility` states how it changes. */
  predicate IsVisible(w: Widget)
    ensures IsVisible(w) ==> w.dom.Some?
  {
    w.dom.Some? && w.dom.value.displayed
  }

  /** A widget that has just mounted is visible, and hiding it twice shows it again. */
  lemma MountedIsVisible(w: Widget, hostFound: bool)
    requires !w.mounted
    ensures IsVisible(Mount(w, hostFound))
    ensures IsVisible(ToggleVisibility(ToggleVisibility(Mount(w, hostFound))))
    ensures !IsVisible(ToggleVisibility(Mount(w, hostFound)))
  {
  }

  /** Two visibility toggles restore the widget exactly. */
  lemma ToggleVisibilityTwice(w: Widget)
    ensures ToggleVisibility(ToggleVisibility(w)) == w
  {
  }

  // ---------------------------------------------------------------- rendering

  /** The table row for the entry at position `i` of the elementary board. */
  function ElementaryRowOf(i: nat, e: ElementaryEntry): ElementaryRow {
    ElementaryRow(i + 1, HtmlEscape.Escape(e.user), e.score, e.id)
  }

  /** The table body: row `k` shows entry `k`, ranked `k + 1`. */
  function ElementaryRows(entries: seq<ElementaryEntry>): (rows: seq<ElementaryRow>)
    ensures |rows| == |entries|
    ensures forall k :: 0 <= k < |rows| ==> rows[k] == ElementaryRowOf(k, entries[k])
  {
    seq(|entries|, k requires 0 <= k < |entries| => ElementaryRowOf(k, entries[k]))
  }

  /** The table row for the entry at position `i` of the global board. */
  function GlobalRowOf(i: nat, e: GlobalEntry): GlobalRow {
    GlobalRow(
      i + 1,
      HtmlEscape.EscapeOptional(FirstTruthy(e.user, e.username)),
      HtmlEscape.EscapeOptional(FirstTruthy(e.gameName, e.game)),
      e.score)
  }

  /** The table body: row `k` shows entry `k`, ranked `k + 1`. */
  function GlobalRows(entries: seq<GlobalEntry>): (rows: seq<GlobalRow>)
    ensures |rows| == |entries|
    ensures forall k :: 0 <= k < |rows| ==> rows[k] == GlobalRowOf(k, entries[k])
  {
    seq(|entries|, k requires 0 <= k < |entries| => GlobalRowOf(k, entries[k]))
  }

  /** The elementary table: one row per entry, ranked by position, each name recoverable from its escaped form. */
  lemma ElementaryTableFaithful(entries: seq<ElementaryEntry>)
    ensures var rows := ElementaryRows(entries);
      && |rows| == |entries|
      && (forall k :: 0 <= k < |rows| ==> rows[k].rank == k + 1)
      && (forall k :: 0 <= k < |rows| ==> HtmlEscape.Unescape(rows[k].player) == entries[k].user)
      && (forall k :: 0 <= k < |rows| ==> rows[k].score == entries[k].score && rows[k].deleteId == entries[k].id)
  {
    var rows := ElementaryRows(entries);
    forall k | 0 <= k < |rows| ensures HtmlEscape.Unescape(rows[k].player) == entries[k].user {
      HtmlEscape.UnescapeEscape(entries[k].user);
    }
  }

  /** The global table: one row per entry, ranked by position, every cell safe markup that decodes to the player and game shown. */
  lemma GlobalTableFaithful(entries: seq<GlobalEntry>)
    ensures var rows := GlobalRows(entries);
      && |rows| == |entries|
      && (forall k :: 0 <= k < |rows| ==> rows[k].rank == k + 1 && rows[k].score == entries[k].score)
      && (forall k :: 0 <= k < |rows| ==> HtmlEscape.WellEscaped(rows[k].player) && HtmlEscape.WellEscaped(rows[k].game))
      && (forall k :: 0 <= k < |rows| ==>
            HtmlEscape.Unescape(rows[k].player) == FirstTruthy(entries[k].user, entries[k].username).GetOr(""))
      && (forall k :: 0 <= k < |rows| ==>
            HtmlEscape.Unescape(rows[k].game) == FirstTruthy(entries[k].gameName, entries[k].game).GetOr(""))
  {
    var rows := GlobalRows(entries);
    assert HtmlEscape.Unescape([]) == [];
    forall k | 0 <= k < |rows|
      ensures HtmlEscape.Unescape(rows[k].player) == FirstTruthy(entries[k].user, entries[k].username).GetOr("")
      ensures HtmlEscape.Unescape(rows[k].game) == FirstTruthy(entries[k].gameName, entries[k].game).GetOr("")
    {
      assert rows[k] == GlobalRowOf(k, entries[k]);
    }
  }


  /** `displayElementaryLeaderboard()`: the table of the cached entries above the add form; the preview shows the top entry if there is one. */
  function DisplayElementary(w: Widget): (r: Widget)
    ensures w.dom.None? ==> r == w
    ensures w.dom.Some? ==>
      && r.dom.Some?
      && r.dom.value.list == ElementaryBoard(ElementaryRows(w.elementaryEntries))
      && r.dom.value.preview == (if w.elementaryEntries == [] then w.dom.value.preview
                                 else HighScore(w.elementaryEntries[0].user, w.elementaryEntries[0].score))
    ensures SameSettings(r, w) && KeepsHeader(r, w)
    ensures SameProgress(r, w) && KeepsBack(r, w) && r.elementaryEntries == w.elementaryEntries
  {
    if w.dom.None? then w
    else
      var entries := w.elementaryEntries;
      var d := w.dom.value;
      var preview := if entries == [] then d.preview else HighScore(entries[0].user, entries[0].score);
      w.(dom := Some(d.(preview := preview, list := ElementaryBoard(ElementaryRows(entries)))))
  }

  /** `displayLeaderboard(data)`: "No scores yet" for anything but a non-empty array, otherwise the ranked table and the top entry in the preview. */
  function DisplayLeaderboard(w: Widget, data: GlobalData): (r: Widget)
    ensures w.dom.None? ==> r == w
    ensures w.dom.Some? && (data.NotAnArray? || data.entries == []) ==> r == SetList(w, NoScores)
    ensures w.dom.Some? && data.Entries? && data.entries != [] ==>
      var top := data.entries[0];
      && r.dom.Some?
      && r.dom.value.list == GlobalBoard(GlobalRows(data.entries))
      && r.dom.value.preview == HighScore(Interpolate(FirstTruthy(top.user, top.username)), top.score)
    ensures w.dom.Some? ==> r.dom.Some? && ShowsPollResult(r.dom.value.list) && r.dom.value.backShown == w.dom.value.backShown
    ensures r.(dom := w.dom) == w
    ensures SameSettings(r, w) && KeepsHeader(r, w)
  {
    if w.dom.None? then w
    else match data
      case NotAnArray => SetList(w, NoScores)
      case Entries(entries) =>
        if entries == [] then SetList(w, NoScores)
        else
          var top := entries[0];
          var preview := HighScore(Interpolate(FirstTruthy(top.user, top.username)), top.score);
          w.(dom := Some(w.dom.value.(preview := preview, list := GlobalBoard(GlobalRows(entries)))))
  }

  // ---------------------------------------------------------------- dynamic mode

  /** What the list region can show once a poll of the global board has completed. */
  predicate ShowsPollResult(view: ListView) {
    view.GlobalBoard? || view.NoScores? || view.LoadError?
  }

  /** `fetchLeaderboard()`: only in dynamic mode and only on the page; a failure shows the error text and keeps polling. */
  function FetchLeaderboard(w: Widget, reply: Reply<GlobalData>): (o: Out)
    ensures w.mode != Dynamic || w.dom.None? ==> o == Out(w, [])
    ensures w.mode == Dynamic && w.dom.Some? ==>
      && o.effects == [Send(GetGlobal)]
      && (reply.Ok? ==> o.widget == DisplayLeaderboard(w, reply.value))
      && (reply.Failed? ==> o.widget == SetList(w, LoadError))
      && o.widget.dom.Some? && ShowsPollResult(o.widget.dom.value.list)
      && o.widget.dom.value.backShown == w.dom.value.backShown
    ensures o.widget.(dom := w.dom) == w
    ensures SameSettings(o.widget, w) && KeepsHeader(o.widget, w) && o.widget.elementaryEntries == w.elementaryEntries
  {
    if w.mode != Dynamic || w.dom.None? then Out(w, [])
    else
      var shown := match reply
        case Ok(data) => DisplayLeaderboard(w, data)
        case Failed(_) => SetList(w, LoadError);
      Out(shown, [Send(GetGlobal)])
  }

  /** `setInterval(...)`: a fresh handle, now running, kept in `refreshInterval`. */
  function StartPolling(w: Widget): (r: Widget)
    ensures r.refreshInterval == Some(w.timers.next)
    ensures r.timers == Timers(w.timers.active + {w.timers.next}, w.timers.next + 1)
    ensures r.(refreshInterval := w.refreshInterval, timers := w.timers) == w
    ensures SameSettings(r, w) && r.dom == w.dom && r.elementaryEntries == w.elementaryEntries
  {
    var handle := w.timers.next;
    w.(refreshInterval := Some(handle), timers := Timers(w.timers.active + {handle}, handle + 1))
  }

  /** The dynamic button: enter dynamic mode, fetch once and start polling every `RefreshPeriodMs`. */
  function ChooseDynamic(w: Widget, first: Reply<GlobalData>): (o: Out)
    ensures o.widget.mode == Dynamic && !o.widget.showingTypeSelection
    ensures w.dom.Some? ==>
      && o.effects == [Send(GetGlobal)]
      && o.widget.refreshInterval == Some(w.timers.next)
      && o.widget.timers == Timers(w.timers.active + {w.timers.next}, w.timers.next + 1)
      && o.widget.dom.Some? && o.widget.dom.value.backShown
      && ShowsPollResult(o.widget.dom.value.list)
    ensures w.dom.Some? ==> SameHeader(o.widget.dom.value, w.dom.value)
    ensures SameSettings(o.widget, w) && o.widget.elementaryEntries == w.elementaryEntries
    ensures w.dom.None? ==> o == Out(w.(mode := Dynamic, showingTypeSelection := false), [])
  {
    var chosen := w.(mode := Dynamic, showingTypeSelection := false);
    if chosen.dom.None? then Out(chosen, [])
    else
      var loading := chosen.(dom := Some(chosen.dom.value.(list := Loading, backShown := true)));
      var fetched := FetchLeaderboard(loading, first);
      Out(StartPolling(fetched.widget), fetched.effects)
  }
  /** The first poll's reply decides the view: the ranked board with its top entry, "No scores yet", or the error text. */
  lemma ChooseDynamicShowsReply(w: Widget, first: Reply<GlobalData>)
    requires w.dom.Some?
    ensures var before := w.dom.value;
      var after := ChooseDynamic(w, first).widget.dom.value;
      && (first.Failed? ==> after.list == LoadError && after.preview == before.preview)
      && (first.Ok? && (first.value.NotAnArray? || first.value.entries == []) ==>
            after.list == NoScores && after.preview == before.preview)
      && (first.Ok? && first.value.Entries? && first.value.entries != [] ==>
            var top := first.value.entries[0];
            && after.list == GlobalBoard(GlobalRows(first.value.entries))
            && after.preview == HighScore(Interpolate(FirstTruthy(top.user, top.username)), top.score))
  {
    var chosen := w.(mode := Dynamic, showingTypeSelection := false);
    var loading := chosen.(dom := Some(chosen.dom.value.(list := Loading, backShown := true)));
    var fetched := FetchLeaderboard(loading, first);
    assert ChooseDynamic(w, first).widget.dom == fetched.widget.dom;
    var d := fetched.widget.dom.value;
    match first {
      case Failed(_) =>
        assert d.list == LoadError && d.preview == w.dom.value.preview;
      case Ok(data) =>
        assert fetched.widget == DisplayLeaderboard(loading, data);
        if data.NotAnArray? || data.entries == [] {
          assert d.list == NoScores && d.preview == w.dom.value.preview;
        }
    }
  }


  // ---------------------------------------------------------------- elementary mode

  /** `fetchElementaryLeaderboard()`: the cache becomes the response, or empty on any failure; it is never merged with what was there. */
  function FetchElementary(w: Widget, reply: Reply<seq<ElementaryEntry>>): (o: Out)
    ensures o.effects == [Send(GetElementary)]
    ensures o.widget.elementaryEntries == (if reply.Ok? then reply.value else [])
    ensures o.widget == DisplayElementary(w.(elementaryEntries := o.widget.elementaryEntries))
    ensures SameSettings(o.widget, w) && KeepsHeader(o.widget, w)
    ensures SameProgress(o.widget, w) && KeepsBack(o.widget, w)
  {
    var entries := if reply.Ok? then reply.value else [];
    Out(DisplayElementary(w.(elementaryEntries := entries)), [Send(GetElementary)])
  }

  /** The outcome of a fetch does not depend on what was cached before it. */
  lemma FetchElementaryForgetsCache(w: Widget, cached: seq<ElementaryEntry>, reply: Reply<seq<ElementaryEntry>>)
    ensures FetchElementary(w.(elementaryEntries := cached), reply) == FetchElementary(w, reply)
  {
  }

  /** `showElementaryForm()`: the board when there are entries, the bare first-entry form otherwise. */
  function ShowElementaryForm(w: Widget): (r: Widget)
    ensures w.dom.None? ==> r == w
    ensures w.dom.Some? && w.elementaryEntries != [] ==> r == DisplayElementary(w)
    ensures w.dom.Some? && w.elementaryEntries == [] ==> r == SetList(w, FirstEntryForm)
    ensures SameSettings(r, w) && KeepsHeader(r, w)
    ensures SameProgress(r, w) && KeepsBack(r, w) && r.elementaryEntries == w.elementaryEntries
  {
    if w.dom.None? then w
    else if w.elementaryEntries != [] then DisplayElementary(w)
    else SetList(w, FirstEntryForm)
  }

  /** The elementary button: enter elementary mode, fetch, then show the board or the first-entry form. */
  function ChooseElementary(w: Widget, first: Reply<seq<ElementaryEntry>>): (o: Out)
    ensures o.widget.mode == Elementary && !o.widget.showingTypeSelection
    ensures o.effects == [Send(GetElementary)]
    ensures o.widget.elementaryEntries == (if first.Ok? then first.value else [])
    ensures o.widget.timers == w.timers && o.widget.refreshInterval == w.refreshInterval
    ensures w.dom.Some? ==>
      && o.widget.dom.Some? && o.widget.dom.value.backShown
      && SameHeader(o.widget.dom.value, w.dom.value)
    ensures w.dom.None? ==> o.widget.dom.None?
    ensures SameSettings(o.widget, w)
  {
    var chosen := w.(mode := Elementary, showingTypeSelection := false);
    var marked := if chosen.dom.None? then chosen else chosen.(dom := Some(chosen.dom.value.(backShown := true)));
    var fetched := FetchElementary(marked, first);
    Out(ShowElementaryForm(fetched.widget), fetched.effects)
  }
  /** The fetched entries decide the view: their board with the top entry as preview, or the bare first-entry form. */
  lemma ChooseElementaryShowsEntries(w: Widget, first: Reply<seq<ElementaryEntry>>)
    requires w.dom.Some?
    ensures var entries := if first.Ok? then first.value else [];
      var after := ChooseElementary(w, first).widget.dom.value;
      && (entries == [] ==> after.list == FirstEntryForm && after.preview == w.dom.value.preview)
      && (entries != [] ==>
            && after.list == ElementaryBoard(ElementaryRows(entries))
            && after.preview == HighScore(entries[0].user, entries[0].score))
  {
    var chosen := w.(mode := Elementary, showingTypeSelection := false);
    var marked := chosen.(dom := Some(chosen.dom.value.(backShown := true)));
    var fetched := FetchElementary(marked, first);
    assert ChooseElementary(w, first).widget == ShowElementaryForm(fetched.widget);
  }


  /** The add form is on the page. */
  predicate HasForm(view: ListView) {
    view.FirstEntryForm? || view.ElementaryBoard?
  }

  /** The form's check: a name that is not blank after trimming, and a score `parseInt` can read. */
  function ReadForm(nameField: string, scoreField: string, gameName: string): (p: Option<Payload>)
    ensures p.None? <==> JsText.AllSpace(nameField) || JsText.ParseInt(scoreField).None?
    ensures p.Some? ==> p.value == Payload(JsText.Trim(nameField), JsText.ParseInt(scoreField).value, gameName)
  {
    var name := JsText.Trim(nameField);
    var score := JsText.ParseInt(scoreField);
    JsText.TrimEmptyIffAllSpace(nameField);
    if name == [] || score.None? then None else Some(Payload(name, score.value, gameName))
  }

  /**
   * `addElementaryScore()` with the two fields' contents: rejected input
   * sends nothing; otherwise one create request, then on success one fetch
   * that redraws the board, and on failure an alert with nothing redrawn.
   */
  function AddElementaryScore(w: Widget, nameField: string, scoreField: string,
                              post: Reply<()>, refetch: Reply<seq<ElementaryEntry>>): (o: Out)
    ensures w.dom.None? || !HasForm(w.dom.value.list) ==> o == Out(w, [])
    ensures w.dom.Some? && HasForm(w.dom.value.list) ==>
      var p := ReadForm(nameField, scoreField, w.gameName);
      && (p.None? ==> o == Out(w, [Alert(MissingInput)]))
      && (p.Some? ==> |o.effects| == 2 && o.effects[0] == Send(PostElementary(p.value)))
      && (p.Some? && post.Ok? ==> o.effects[1] == Send(GetElementary)
                                  && o.widget == FetchElementary(w, refetch).widget)
      && (p.Some? && post == Failed(Unreachable) ==>
            o == Out(w, [Send(PostElementary(p.value)), Alert(ServerUnreachable)]))
      && (p.Some? && post.Failed? && post.why != Unreachable ==>
            o == Out(w, [Send(PostElementary(p.value)), Alert(SaveFailed)]))
  {
    if w.dom.None? || !HasForm(w.dom.value.list) then Out(w, [])
    else
      match ReadForm(nameField, scoreField, w.gameName)
      case None => Out(w, [Alert(MissingInput)])
      case Some(payload) =>
        match post
        case Failed(why) =>
          var alert := if why == Unreachable then ServerUnreachable else SaveFailed;
          Out(w, [Send(PostElementary(payload)), Alert(alert)])
        case Ok(_) =>
          var fetched := FetchElementary(w, refetch);
          Out(fetched.widget, [Send(PostElementary(payload))] + fetched.effects)
  }

  /** A trimmed, non-empty name with a written integer is read back as exactly that name and score. */
  lemma ReadFormOfDecimal(name: string, score: int, gameName: string)
    requires name != [] && JsText.Trim(name) == name
    ensures ReadForm(name, JsText.IntToDecimal(score), gameName) == Some(Payload(name, score, gameName))
  {
    JsText.ParseIntOfDecimal(score);
    JsText.TrimEmptyIffAllSpace(name);
  }

  /** An accepted form is posted as read, and a successful post is followed by exactly one refetch. */
  lemma SubmitSendsForm(w: Widget, nameField: string, scoreField: string, refetch: Reply<seq<ElementaryEntry>>)
    requires w.dom.Some? && HasForm(w.dom.value.list)
    ensures var p := ReadForm(nameField, scoreField, w.gameName);
      p.Some? ==> AddElementaryScore(w, nameField, scoreField, Ok(()), refetch).effects
                  == [Send(PostElementary(p.value)), Send(GetElementary)]
  {
    var p := ReadForm(nameField, scoreField, w.gameName);
    if p.Some? {
      var fetched := FetchElementary(w, refetch);
      assert fetched.effects == [Send(GetElementary)];
      assert AddElementaryScore(w, nameField, scoreField, Ok(()), refetch).effects
          == [Send(PostElementary(p.value))] + fetched.effects;
    }
  }

  /** Submitting a trimmed name with a written integer sends exactly that name, that score and the widget's game, then refetches. */
  lemma SubmitSendsPayload(w: Widget, name: string, score: int, refetch: Reply<seq<ElementaryEntry>>)
    requires w.dom.Some? && HasForm(w.dom.value.list)
    requires name != [] && JsText.Trim(name) == name
    ensures AddElementaryScore(w, name, JsText.IntToDecimal(score), Ok(()), refetch).effects
         == [Send(PostElementary(Payload(name, score, w.gameName))), Send(GetElementary)]
  {
    ReadFormOfDecimal(name, score, w.gameName);
    SubmitSendsForm(w, name, JsText.IntToDecimal(score), refetch);
  }



  /** `deleteElementaryScore(id)`: nothing without confirmation; otherwise one delete, then a refetch on success or an alert on failure. */
  function DeleteElementaryScore(w: Widget, id: int, confirmed: bool,
                                 removal: Reply<()>, refetch: Reply<seq<ElementaryEntry>>): (o: Out)
    ensures !confirmed ==> o == Out(w, [])
    ensures confirmed ==> |o.effects| == 2 && o.effects[0] == Send(DeleteElementary(id))
    ensures confirmed && removal.Ok? ==> o.effects[1] == Send(GetElementary) && o.widget == FetchElementary(w, refetch).widget
    ensures confirmed && removal.Failed? ==> o == Out(w, [Send(DeleteElementary(id)), Alert(DeleteFailed)])
  {
    if !confirmed then Out(w, [])
    else
      var sent := [Send(DeleteElementary(id))];
      match removal
      case Failed(_) => Out(w, sent + [Alert(DeleteFailed)])
      case Ok(_) =>
        var fetched := FetchElementary(w, refetch);
        Out(fetched.widget, sent + fetched.effects)
  }
}

=== FILE: leaderboard_session.dfy ===
/**
 * The leaderboard as the user and the page drive it: an event can only
 * happen when the control it needs is on the page, and a timer tick only
 * while a timer runs. Over every such run the widget keeps at most one
 * polling timer, and none survives `destroy`.
 */
module LeaderboardSession {
  import opened Leaderboard

  datatype Event =
    | DomReady(hostFound: bool)
    | ClickToggle
    | ClickBack
    | ClickDynamic(first: Reply<GlobalData>)
    | ClickElementary(entries: Reply<seq<ElementaryEntry>>)
    | TimerFires(poll: Reply<GlobalData>)
    | SubmitScore(nameField: string, scoreField: string, post: Reply<()>, refetch: Reply<seq<ElementaryEntry>>)
    | ClickDelete(row: nat, confirmed: bool, removal: Reply<()>, afterRemoval: Reply<seq<ElementaryEntry>>)
    | ClickShowHide
    | Teardown

  /** The control the event needs is on the page; a tick needs a running timer. */
  predicate Enabled(w: Widget, e: Event) {
    match e
    case DomReady(_) => true
    case ClickToggle => w.dom.Some?
    case ClickBack => w.dom.Some? && w.dom.value.backShown
    case ClickDynamic(_) => w.dom.Some? && w.dom.value.list == Selection
    case ClickElementary(_) => w.dom.Some? && w.dom.value.list == Selection
    case TimerFires(_) => w.timers.active != {}
    case SubmitScore(_, _, _, _) => w.dom.Some? && HasForm(w.dom.value.list)
    case ClickDelete(row, _, _, _) =>
      w.dom.Some? && w.dom.value.list.ElementaryBoard? && row < |w.dom.value.list.elementaryRows|
    case ClickShowHide => true
    case Teardown => true
  }

  /** One event; an event whose control is absent changes nothing. */
  function Step(w: Widget, e: Event): (o: Out)
    ensures !Enabled(w, e) ==> o == Out(w, [])
    ensures e.DomReady? ==> o == Out(DocumentReady(w, e.hostFound), [])
    ensures e == ClickToggle && Enabled(w, e) ==> o == Out(Toggle(w), [])
    ensures e == ClickBack && Enabled(w, e) ==> o == Out(GoBack(w), [])
    ensures e.ClickDynamic? && Enabled(w, e) ==> o == ChooseDynamic(w, e.first)
    ensures e.ClickElementary? && Enabled(w, e) ==> o == ChooseElementary(w, e.entries)
    ensures e.TimerFires? && Enabled(w, e) ==> o == FetchLeaderboard(w, e.poll)
    ensures e.SubmitScore? && Enabled(w, e) ==>
      o == AddElementaryScore(w, e.nameField, e.scoreField, e.post, e.refetch)
    ensures e == ClickShowHide ==> o == Out(ToggleVisibility(w), [])
    ensures e == Teardown ==> o == Out(Destroy(w), [])
    ensures e.ClickDelete? && Enabled(w, e) ==>
      o == DeleteElementaryScore(w, w.dom.value.list.elementaryRows[e.row].deleteId, e.confirmed, e.removal, e.afterRemoval)
  {
    if !Enabled(w, e) then Out(w, [])
    else match e
      case DomReady(hostFound) => Out(DocumentReady(w, hostFound), [])
      case ClickToggle => Out(Toggle(w), [])
      case ClickBack => Out(GoBack(w), [])
      case ClickDynamic(first) => ChooseDynamic(w, first)
      case ClickElementary(entries) => ChooseElementary(w, entries)
      case TimerFires(poll) => FetchLeaderboard(w, poll)
      case SubmitScore(nameField, scoreField, post, refetch) => AddElementaryScore(w, nameField, scoreField, post, refetch)
      case ClickDelete(row, confirmed, removal, afterRemoval) =>
        DeleteElementaryScore(w, w.dom.value.list.elementaryRows[row].deleteId, confirmed, removal, afterRemoval)
      case ClickShowHide => Out(ToggleVisibility(w), [])
      case Teardown => Out(Destroy(w), [])
  }

  /** The widget after a sequence of events. */
  function Run(w: Widget, events: seq<Event>): Widget
    decreases |events|
  {
    if events == [] then w else Run(Step(w, events[0]).widget, events[1..])
  }

  /**
   * What holds of every widget reachable from the constructor: the type
   * selection is on screen exactly when no mode is chosen, and a timer runs
   * exactly while the dynamic board is on the page, under `refreshInterval`.
   */
  ghost predicate Inv(w: Widget) {
    && (!w.mounted ==> w.dom.None? && w.mode == NoMode)
    && (w.dom.Some? ==> w.mounted)
    && (w.dom.Some? ==> (w.dom.value.list == Selection <==> w.mode == NoMode))
    && (w.dom.Some? && w.mode == Dynamic ==> w.refreshInterval.Some?)
    && w.timers.active == (if w.dom.Some? && w.mode == Dynamic then {w.refreshInterval.value} else {})
  }

  lemma NewEstablishesInv(gameName: string, parentId: string, configured: bool, documentLoading: bool, hostFound: bool)
    ensures Inv(New(gameName, parentId, configured, documentLoading, hostFound))
  {
  }

  lemma StepPreservesInv(w: Widget, e: Event)
    requires Inv(w)
    ensures Inv(Step(w, e).widget)
  {
    if Enabled(w, e) {
      match e
      case DomReady(hostFound) => DocumentReadyKeepsInv(w, hostFound);
      case ClickToggle => ToggleKeepsInv(w);
      case ClickBack => GoBackKeepsInv(w);
      case ClickDynamic(first) => ChooseDynamicKeepsInv(w, first);
      case ClickElementary(entries) => ChooseElementaryKeepsInv(w, entries);
      case TimerFires(poll) => PollKeepsInv(w, poll);
      case SubmitScore(nameField, scoreField, post, refetch) =>
        AddKeepsInv(w, nameField, scoreField, post, refetch);
      case ClickDelete(row, confirmed, removal, afterRemoval) =>
        DeleteKeepsInv(w, w.dom.value.list.elementaryRows[row].deleteId, confirmed, removal, afterRemoval);
      case ClickShowHide => ShowHideKeepsInv(w);
      case Teardown => DestroyKeepsInv(w);
    }
  }

  lemma DocumentReadyKeepsInv(w: Widget, hostFound: bool)
    requires Inv(w)
    ensures Inv(DocumentReady(w, hostFound))
  {
  }

  lemma ToggleKeepsInv(w: Widget)
    requires Inv(w)
    ensures Inv(Toggle(w))
  {
  }

  lemma GoBackKeepsInv(w: Widget)
    requires Inv(w)
    ensures Inv(GoBack(w))
  {
  }

  lemma ChooseDynamicKeepsInv(w: Widget, first: Reply<GlobalData>)
    requires Inv(w) && w.dom.Some? && w.dom.value.list == Selection
    ensures Inv(ChooseDynamic(w, first).widget)
  {
    assert w.mode == NoMode && w.timers.active == {};
  }

  lemma ChooseElementaryKeepsInv(w: Widget, entries: Reply<seq<ElementaryEntry>>)
    requires Inv(w) && w.dom.Some? && w.dom.value.list == Selection
    ensures Inv(ChooseElementary(w, entries).widget)
  {
    assert w.mode == NoMode;
  }

  lemma PollKeepsInv(w: Widget, poll: Reply<GlobalData>)
    requires Inv(w)
    ensures Inv(FetchLeaderboard(w, poll).widget)
  {
  }

  lemma AddKeepsInv(w: Widget, nameField: string, scoreField: string, post: Reply<()>, refetch: Reply<seq<ElementaryEntry>>)
    requires Inv(w) && w.dom.Some? && HasForm(w.dom.value.list)
    ensures Inv(AddElementaryScore(w, nameField, scoreField, post, refetch).widget)
  {
    assert w.mode != NoMode;
  }

  lemma DeleteKeepsInv(w: Widget, id: int, confirmed: bool, removal: Reply<()>, afterRemoval: Reply<seq<ElementaryEntry>>)
    requires Inv(w) && w.dom.Some? && w.dom.value.list.ElementaryBoard?
    ensures Inv(DeleteElementaryScore(w, id, confirmed, removal, afterRemoval).widget)
  {
    assert w.mode != NoMode;
  }

  lemma ShowHideKeepsInv(w: Widget)
    requires Inv(w)
    ensures Inv(ToggleVisibility(w))
  {
  }

  lemma DestroyKeepsInv(w: Widget)
    requires Inv(w)
    ensures Inv(Destroy(w))
  {
  }

  lemma {:induction false} RunPreservesInv(w: Widget, events: seq<Event>)
    requires Inv(w)
    ensures Inv(Run(w, events))
    decreases |events|
  {
    if events != [] {
      StepPreservesInv(w, events[0]);
      RunPreservesInv(Step(w, events[0]).widget, events[1..]);
    }
  }

  /** Under the invariant at most one timer runs, and only the dynamic board's. */
  lemma AtMostOneTimer(w: Widget)
    requires Inv(w)
    ensures |w.timers.active| <= 1
    ensures w.timers.active != {} ==> w.mode == Dynamic && w.dom.Some? && w.timers.active == {w.refreshInterval.value}
  {
  }

  /** However the user moves between the boards, no run of the widget ever has two polling timers. */
  lemma SessionHasAtMostOneTimer(gameName: string, parentId: string, configured: bool, documentLoading: bool,
                                 hostFound: bool, events: seq<Event>)
    ensures |Run(New(gameName, parentId, configured, documentLoading, hostFound), events).timers.active| <= 1
  {
    var w := New(gameName, parentId, configured, documentLoading, hostFound);
    NewEstablishesInv(gameName, parentId, configured, documentLoading, hostFound);
    RunPreservesInv(w, events);
    AtMostOneTimer(Run(w, events));
  }

  /** `destroy` leaves no timer running. */
  lemma TeardownStopsTimers(w: Widget)
    requires Inv(w)
    ensures Step(w, Teardown).widget.timers.active == {}
  {
  }

  /** After `destroy` the widget stays off the page and silent, whatever else happens. */
  lemma {:induction false} DestroyedStaysQuiet(w: Widget, events: seq<Event>)
    requires Inv(w) && w.mounted && w.dom.None?
    ensures Run(w, events).dom.None? && Run(w, events).timers.active == {}
    decreases |events|
  {
    if events != [] {
      StepPreservesInv(w, events[0]);
      DestroyedStaysQuiet(Step(w, events[0]).widget, events[1..]);
    }
  }

  /** A failed refetch after an add or a delete leaves the elementary board with no rows. */
  lemma FailedFetchShowsNoRows(w: Widget, why: Failure)
    requires w.dom.Some?
    ensures FetchElementary(w, Failed(why)).widget.dom.value.list == ElementaryBoard([])
    ensures FetchElementary(w, Failed(why)).widget.elementaryEntries == []
  {
  }

  /** Deleting without confirming sends nothing and changes nothing. */
  lemma UnconfirmedDeleteIsInert(w: Widget, row: nat, removal: Reply<()>, afterRemoval: Reply<seq<ElementaryEntry>>)
    ensures Step(w, ClickDelete(row, false, removal, afterRemoval)) == Out(w, [])
  {
  }
}

=== FILE: mansion_core.dfy ===
/**
 * The level-navigation part of the mansion game's `GameCore`: returning to
 * the first level, stepping back and forward, the pause button of the top
 * control bar, and the choice of the element the leaderboard embeds into.
 * The engine's `GameControl` is a record; the calls made on it and on its
 * current level are recorded in order.
 */
module MansionCore {
  import opened Wrappers
  import Leaderboard

  /** A level class, named by its identifier. */
  type LevelClass = string

  /** The running level: whether its `continue` flag is set, and whether it has a `destroy` method. */
  datatype Level = Level(continues: bool, hasDestroy: bool)

  datatype Control = Control(
    levelClasses: seq<LevelClass>,
    currentLevelIndex: int,
    isPaused: bool,
    currentLevel: Option<Level>,
    hasCleanup: bool)

  /** A call into the engine. */
  datatype Call = StartGame | DestroyLevel | CleanupInteractionHandlers | TransitionToLevel | PauseGame | ResumeGame

  /** `environment.gameContainer`: absent, an id string, an element with an `id`, or some other value. */
  datatype Container = NoContainer | IdString(id: string) | Element(elementId: string) | OtherValue

  datatype Core = Core(initialLevelClasses: seq<LevelClass>, gameControl: Option<Control>, gameContainer: Container)

  datatype Out = Out(core: Core, calls: seq<Call>)

  const DefaultContainerId := "gameContainer"
  const LeaderboardGameName := "MansionGame"
  const PauseLabel := "Pause"
  const ResumeLabel := "Resume"

  /**
   * The constructor: the level list is copied into a snapshot, and the
   * control is started on a second copy. The control's own start-up state is
   * not visible here; it is taken to begin at level 0, unpaused, with no
   * level running yet.
   */
  function New(levels: Option<seq<LevelClass>>, container: Container, engineHasCleanup: bool): (o: Out)
    ensures o.core.initialLevelClasses == levels.GetOr([])
    ensures o.core.gameControl.Some? && o.core.gameControl.value.levelClasses == o.core.initialLevelClasses
    ensures o.calls == [StartGame]
  {
    var snapshot := levels.GetOr([]);
    var control := Control(snapshot, 0, false, None, engineHasCleanup);
    Out(Core(snapshot, Some(control), container), [StartGame])
  }

  /** The control's working level list changes (the engine advancing, reordering or trimming it). */
  function SetWorkingLevels(core: Core, levels: seq<LevelClass>): (r: Core)
    requires core.gameControl.Some?
    ensures r.initialLevelClasses == core.initialLevelClasses
    ensures r.gameControl.Some? && r.gameControl.value.levelClasses == levels
  {
    core.(gameControl := Some(core.gameControl.value.(levelClasses := levels)))
  }

  /** The guarded clean-up both backward moves perform: destroy the running level if it can be destroyed, then drop the interaction handlers (a missing method is caught). */
  function CleanupCalls(c: Control): (calls: seq<Call>)
    ensures DestroyLevel in calls <==> c.currentLevel.Some? && c.currentLevel.value.hasDestroy
    ensures CleanupInteractionHandlers in calls <==> c.hasCleanup
    ensures TransitionToLevel !in calls && PauseGame !in calls && ResumeGame !in calls
    ensures multiset(calls)[DestroyLevel] <= 1 && multiset(calls)[CleanupInteractionHandlers] <= 1
    ensures DestroyLevel in calls ==> calls[0] == DestroyLevel
  {
    (if c.currentLevel.Some? && c.currentLevel.value.hasDestroy then [DestroyLevel] else [])
    + (if c.hasCleanup then [CleanupInteractionHandlers] else [])
  }

  /** `returnHome()`: back to the first level of the original list, unpaused. */
  function ReturnHome(core: Core): (o: Out)
    ensures core.gameControl.None? || core.initialLevelClasses == [] ==> o == Out(core, [])
    ensures core.gameControl.Some? && core.initialLevelClasses != [] ==>
      && o.core.initialLevelClasses == core.initialLevelClasses
      && o.core.gameContainer == core.gameContainer
      && o.core.gameControl.Some?
      && o.core.gameControl.value.levelClasses == core.initialLevelClasses
      && o.core.gameControl.value.currentLevelIndex == 0
      && !o.core.gameControl.value.isPaused
      && o.core.gameControl.value.currentLevel == core.gameControl.value.currentLevel
      && o.core.gameControl.value.hasCleanup == core.gameControl.value.hasCleanup
      && o.calls == CleanupCalls(core.gameControl.value) + [TransitionToLevel]
  {
    if core.gameControl.None? || |core.initialLevelClasses| == 0 then Out(core, [])
    else
      var c := core.gameControl.value;
      var restored := c.(levelClasses := core.initialLevelClasses, currentLevelIndex := 0, isPaused := false);
      Out(core.(gameControl := Some(restored)), CleanupCalls(c) + [TransitionToLevel])
  }

  /** Whatever the engine did to its working list, returning home restores the list taken at construction. */
  lemma ReturnHomeRestoresSnapshot(levels: Option<seq<LevelClass>>, container: Container, cleanup: bool, edited: seq<LevelClass>)
    requires levels.Some? && levels.value != []
    ensures var started := New(levels, container, cleanup).core;
      ReturnHome(SetWorkingLevels(started, edited)).core.gameControl.value.levelClasses == levels.value
  {
  }

  /** Returning home twice leaves the game where the first return put it. */
  lemma ReturnHomeIdempotent(core: Core)
    ensures ReturnHome(ReturnHome(core).core).core == ReturnHome(core).core
  {
  }

  /** `loadNextLevel()`: ask the running level to stop, so the engine moves on. */
  function LoadNextLevel(core: Core): (r: Core)
    ensures r.initialLevelClasses == core.initialLevelClasses && r.gameContainer == core.gameContainer
    ensures core.gameControl.Some? && core.gameControl.value.currentLevel.Some? ==>
      && r.gameControl.Some?
      && r.gameControl.value.currentLevel == Some(core.gameControl.value.currentLevel.value.(continues := false))
      && r.gameControl.value.(currentLevel := None) == core.gameControl.value.(currentLevel := None)
    ensures core.gameControl.None? || core.gameControl.value.currentLevel.None? ==> r == core
  {
    match core.gameControl
    case Some(c) =>
      (match c.currentLevel
       case Some(level) => core.(gameControl := Some(c.(currentLevel := Some(level.(continues := false)))))
       case None => core)
    case None => core
  }

  /** Stopping a level that is already stopped changes nothing: a second press of "next" has no further effect. */
  lemma LoadNextLevelIdempotent(core: Core)
    ensures LoadNextLevel(LoadNextLevel(core)) == LoadNextLevel(core)
  {
  }

  /** `loadPreviousLevel()`: one level back, and only from a level after the first. */
  function LoadPreviousLevel(core: Core): (o: Out)
    ensures core.gameControl.None? ==> o == Out(core, [])
    ensures core.gameControl.Some? ==>
      var i := core.gameControl.value.currentLevelIndex;
      && o.core.gameControl.Some?
      && o.core.gameControl.value.currentLevelIndex == (if i > 0 then i - 1 else i)
      && (i <= 0 ==> o == Out(core, []))
      && (i > 0 ==> o.core.gameControl.value.(currentLevelIndex := i) == core.gameControl.value
                    && o.calls == CleanupCalls(core.gameControl.value) + [TransitionToLevel])
    ensures o.core.initialLevelClasses == core.initialLevelClasses && o.core.gameContainer == core.gameContainer
  {
    match core.gameControl
    case Some(c) =>
      if c.currentLevelIndex > 0 then
        var back := c.(currentLevelIndex := c.currentLevelIndex - 1);
        Out(core.(gameControl := Some(back)), CleanupCalls(c) + [TransitionToLevel])
      else Out(core, [])
    case None => Out(core, [])
  }

  /** `steps` presses of the previous-level control. */
  function LoadPreviousTimes(core: Core, steps: nat): Core
    decreases steps
  {
    if steps == 0 then core else LoadPreviousTimes(LoadPreviousLevel(core).core, steps - 1)
  }

  /** Stepping back `k` times from level `i` lands on level `max(i - k, 0)`: the index never goes negative. */
  lemma {:induction false} LoadPreviousFloorsAtZero(core: Core, steps: nat)
    requires core.gameControl.Some? && core.gameControl.value.currentLevelIndex >= 0
    ensures var i := core.gameControl.value.currentLevelIndex;
      var r := LoadPreviousTimes(core, steps);
      r.gameControl.Some? && r.gameControl.value.currentLevelIndex == (if i >= steps then i - steps else 0)
    decreases steps
  {
    if steps > 0 {
      LoadPreviousFloorsAtZero(LoadPreviousLevel(core).core, steps - 1);
    }
  }

  /** What the engine's `pause()` and `resume()` do to its flag. */
  function Apply(c: Control, call: Call): (r: Control)
    ensures call == PauseGame ==> r.isPaused
    ensures call == ResumeGame ==> !r.isPaused
    ensures r.(isPaused := c.isPaused) == c
  {
    match call
    case PauseGame => c.(isPaused := true)
    case ResumeGame => c.(isPaused := false)
    case _ => c
  }

  datatype Press = Press(control: Control, caption: string, calls: seq<Call>)

  /** The pause button's click handler: resume a paused game, pause a running one, and relabel the button. */
  function PressPause(c: Control): (p: Press)
    ensures c.isPaused ==> p.calls == [ResumeGame] && p.caption == PauseLabel
    ensures !c.isPaused ==> p.calls == [PauseGame] && p.caption == ResumeLabel
    ensures p.control.isPaused == !c.isPaused
    ensures p.control.(isPaused := c.isPaused) == c
  {
    var call := if c.isPaused then ResumeGame else PauseGame;
    Press(Apply(c, call), if c.isPaused then PauseLabel else ResumeLabel, [call])
  }

  /** The label always names what the next press does, and two presses restore the game. */
  lemma PressPauseTwice(c: Control)
    ensures PressPause(PressPause(c).control).control == c
    ensures PressPause(c).caption == (if PressPause(c).control.isPaused then ResumeLabel else PauseLabel)
  {
  }

  /** The `parentId` handed to the leaderboard. */
  function ResolveParentId(container: Container): (id: string)
    ensures container.IdString? ==> id == container.id
    ensures container.Element? && container.elementId != [] ==> id == container.elementId
    ensures container.Element? && container.elementId == [] ==> id == DefaultContainerId
    ensures container.NoContainer? || container.OtherValue? ==> id == DefaultContainerId
  {
    match container
    case IdString(s) => s
    case Element(elementId) => if elementId != [] then elementId else DefaultContainerId
    case _ => DefaultContainerId
  }

  /** Only an empty id string yields an empty `parentId`; every other container gives a usable id. */
  lemma ParentIdEmptyOnlyForEmptyString(container: Container)
    ensures ResolveParentId(container) == [] <==> container == IdString([])
  {
  }

  /**
   * The leaderboard the constructor creates once the module has loaded: named
   * after the mansion game and embedded in the resolved container when that
   * element exists, otherwise shown as an overlay.
   */
  function CreateLeaderboard(core: Core, configured: bool, documentLoading: bool, hostFound: bool): (w: Leaderboard.Widget)
    ensures w.gameName == LeaderboardGameName
    ensures w.parentId.None? <==> core.gameContainer == IdString([])
    ensures w.parentId.Some? ==> w.parentId.value == ResolveParentId(core.gameContainer)
    ensures w.dom.Some? <==> configured && !documentLoading
    ensures w.dom.Some? ==> (w.dom.value.embedded <==> core.gameContainer != IdString([]) && hostFound)
  {
    Leaderboard.New(LeaderboardGameName, ResolveParentId(core.gameContainer), configured, documentLoading, hostFound)
  }
}

=== FILE: pause_feature.dfy ===
/**
 * `PauseFeature`: a two-state pause switch attached to a pause menu. It acts
 * only when the menu has a container, and forwards to the game control's
 * `pause`/`resume` when the control provides them.
 */
module PauseFeature {

  /** The game control, as far as this feature sees it: which of the two hooks are functions. */
  datatype Control = NoControl | Control(hasPause: bool, hasResume: bool)

  datatype PauseMenu = PauseMenu(hasContainer: bool, gameControl: Control)

  datatype Feature = Feature(menu: PauseMenu, isPaused: bool)

  /** A call made on the game control. */
  datatype Call = Pause | Resume

  datatype Out = Out(feature: Feature, calls: seq<Call>)

  /** `new PauseFeature(pauseMenu)`: not paused. */
  function New(menu: PauseMenu): (f: Feature)
    ensures !f.isPaused && f.menu == menu
  {
    Feature(menu, false)
  }

  predicate CanPause(c: Control) {
    c.Control? && c.hasPause
  }

  predicate CanResume(c: Control) {
    c.Control? && c.hasResume
  }

  /** `show()`: pause, silently. */
  function Show(f: Feature): (o: Out)
    ensures !f.menu.hasContainer ==> o == Out(f, [])
    ensures f.menu.hasContainer ==> o.feature == f.(isPaused := true)
    ensures f.menu.hasContainer ==> (o.calls == [Pause] <==> CanPause(f.menu.gameControl))
    ensures o.calls == [] || o.calls == [Pause]
  {
    if !f.menu.hasContainer then Out(f, [])
    else Out(f.(isPaused := true), if CanPause(f.menu.gameControl) then [Pause] else [])
  }

  /** `hide()`: resume. */
  function Hide(f: Feature): (o: Out)
    ensures !f.menu.hasContainer ==> o == Out(f, [])
    ensures f.menu.hasContainer ==> o.feature == f.(isPaused := false)
    ensures f.menu.hasContainer ==> (o.calls == [Resume] <==> CanResume(f.menu.gameControl))
    ensures o.calls == [] || o.calls == [Resume]
  {
    if !f.menu.hasContainer then Out(f, [])
    else Out(f.(isPaused := false), if CanResume(f.menu.gameControl) then [Resume] else [])
  }

  /** `resume()` delegates to `hide()`. */
  function ResumeFeature(f: Feature): (o: Out)
    ensures o == Hide(f)
  {
    Hide(f)
  }

  /** `toggle()`: hide when paused, show otherwise. */
  function Toggle(f: Feature): (o: Out)
    ensures f.menu.hasContainer ==> o.feature.isPaused == !f.isPaused
    ensures !f.menu.hasContainer ==> o == Out(f, [])
    ensures o.feature.menu == f.menu
    ensures o.calls == [Pause] <==> f.menu.hasContainer && !f.isPaused && CanPause(f.menu.gameControl)
    ensures o.calls == [Resume] <==> f.menu.hasContainer && f.isPaused && CanResume(f.menu.gameControl)
    ensures o.calls == [] || o.calls == [Pause] || o.calls == [Resume]
  {
    if f.isPaused then Hide(f) else Show(f)
  }

  /** Two toggles restore the feature, and between them the control saw at most one pause and one resume. */
  lemma ToggleTwice(f: Feature)
    ensures Toggle(Toggle(f).feature).feature == f
    ensures multiset(Toggle(f).calls + Toggle(Toggle(f).feature).calls) <= multiset{Pause, Resume}
  {
  }

  /** The pause flag only ever moves when there is a container: without one it stays at its initial `false`. */
  lemma NoContainerNeverPauses(menu: PauseMenu, presses: nat)
    requires !menu.hasContainer
    ensures !Toggles(New(menu), presses).isPaused
  {
    NoContainerTogglesInert(New(menu), presses);
  }

  /** `presses` consecutive toggles. */
  function Toggles(f: Feature, presses: nat): Feature
    decreases presses
  {
    if presses == 0 then f else Toggles(Toggle(f).feature, presses - 1)
  }

  lemma {:induction false} NoContainerTogglesInert(f: Feature, presses: nat)
    requires !f.menu.hasContainer
    ensures Toggles(f, presses) == f
    decreases presses
  {
    if presses > 0 {
      NoContainerTogglesInert(Toggle(f).feature, presses - 1);
    }
  }

  /** With a container, after `n` toggles the flag is the starting one when `n` is even and its negation when `n` is odd. */
  lemma {:induction false} TogglesParity(f: Feature, presses: nat)
    requires f.menu.hasContainer
    ensures Toggles(f, presses).isPaused == (if presses % 2 == 0 then f.isPaused else !f.isPaused)
    decreases presses
  {
    if presses > 0 {
      TogglesParity(Toggle(f).feature, presses - 1);
    }
  }
}

=== FILE: score_settings.dfy ===
/**
 * `scoreSettings` of the adventure and the mansion game: configuration
 * constants plus `buildDto`, which turns the pause menu's statistics into the
 * record sent when a score is saved. Both games share one definition and
 * differ only in their `Settings` value.
 */
module ScoreSettings {
  import opened Wrappers
  import opened JsValue

  datatype Settings = Settings(
    gameName: string,
    counterVar: string,
    counterLabel: string,
    scoreVar: string,
    storageKey: string,
    counterPerLevel: bool)

  const Adventure: Settings :=
    Settings("AdventureGame", "coinsCollected", "Coins Collected", "coinsCollected", "pauseMenuStats:adventure", false)

  const Mansion: Settings :=
    Settings("MansionGame", "levelsCompleted", "Levels Completed", "levelsCompleted", "pauseMenuStats:mansion", false)

  const GuestUser := "guest"
  const PausedStatus := "PAUSED"

  /** The statistics object: a missing key reads as `undefined`. */
  type Stats = map<string, Value>

  /** The game control as far as `buildDto` sees it: only its statistics. */
  datatype GameControl = GameControl(stats: Option<Stats>)

  datatype PauseMenu = PauseMenu(gameControl: Option<GameControl>, stats: Option<Stats>)

  /** The DTO; `counterField` is the name under which `counter` is sent (`coinsCollected` or `levelsCompleted`). */
  datatype Dto = Dto(
    user: string,
    score: Num,
    counterField: string,
    counter: Num,
    sessionTime: int,
    totalPowerUps: int,
    status: string,
    gameName: string,
    variableName: string)

  /** `buildDto` both returns the DTO and overwrites `pauseMenu.stats`. */
  datatype Built = Built(dto: Dto, menu: PauseMenu)

  /** `stats[key]`, read through `stats && ...`: absent statistics behave like a missing key. */
  function Field(stats: Option<Stats>, key: string): Value {
    match stats
    case None => Undefined
    case Some(m) => if key in m then m[key] else Undefined
  }

  /** The statistics a control exposes, if it exists and has any. */
  function ControlStats(pm: PauseMenu): Option<Stats> {
    if pm.gameControl.Some? then pm.gameControl.value.stats else None
  }

  /** The sync step: `gameControl.stats`, when present, replaces `pauseMenu.stats`. */
  function SyncStats(pm: PauseMenu): (r: PauseMenu)
    ensures r.gameControl == pm.gameControl
    ensures ControlStats(pm).Some? ==> r.stats == ControlStats(pm)
    ensures ControlStats(pm).None? ==> r == pm
  {
    if ControlStats(pm).Some? then pm.(stats := ControlStats(pm)) else pm
  }

  /** `stats && stats[key] ? Number(stats[key]) : 0`. */
  function CounterValue(stats: Option<Stats>, key: string): Num {
    var v := Field(stats, key);
    if Truthy(v) then ToNumber(v) else Int(0)
  }

  /** `stats && (stats.sessionTime || stats.elapsedMs || stats.timePlayed || 0)`, then `Number(...) || 0`. */
  function SessionTime(stats: Option<Stats>): int {
    var chosen := Or(Field(stats, "sessionTime"), Or(Field(stats, "elapsedMs"), Or(Field(stats, "timePlayed"), Numeric(Int(0)))));
    NumberOrZero(chosen)
  }

  /** `(stats && Number(stats.totalPowerUps)) || 0`. */
  function TotalPowerUps(stats: Option<Stats>): int {
    NumberOrZero(Field(stats, "totalPowerUps"))
  }

  /** `scoreSettings.buildDto(pauseMenu)`. */
  function BuildDto(settings: Settings, pm: PauseMenu): (b: Built)
    ensures b.dto.user == GuestUser && b.dto.status == PausedStatus
    ensures b.dto.gameName == settings.gameName
    ensures b.dto.variableName == settings.counterVar && b.dto.counterField == settings.counterVar
    ensures b.menu == SyncStats(pm)
  {
    var menu := SyncStats(pm);
    var stats := menu.stats;
    var dto := Dto(
      user := GuestUser,
      score := CounterValue(stats, settings.scoreVar),
      counterField := settings.counterVar,
      counter := CounterValue(stats, settings.counterVar),
      sessionTime := SessionTime(stats),
      totalPowerUps := TotalPowerUps(stats),
      status := PausedStatus,
      gameName := settings.gameName,
      variableName := settings.counterVar);
    Built(dto, menu)
  }

  /** The statistics every DTO field is read from. */
  function EffectiveStats(pm: PauseMenu): Option<Stats> {
    SyncStats(pm).stats
  }

  /** When `scoreVar` and `counterVar` coincide, the score is the counter. */
  lemma ScoreIsCounter(settings: Settings, pm: PauseMenu)
    requires settings.scoreVar == settings.counterVar
    ensures BuildDto(settings, pm).dto.score == BuildDto(settings, pm).dto.counter
  {
  }

  /** Both games score by their counter: coins collected, levels completed. */
  lemma GamesScoreByCounter(pm: PauseMenu)
    ensures BuildDto(Adventure, pm).dto.score == BuildDto(Adventure, pm).dto.counter
    ensures BuildDto(Adventure, pm).dto.counterField == "coinsCollected"
    ensures BuildDto(Mansion, pm).dto.score == BuildDto(Mansion, pm).dto.counter
    ensures BuildDto(Mansion, pm).dto.counterField == "levelsCompleted"
  {
    ScoreIsCounter(Adventure, pm);
    ScoreIsCounter(Mansion, pm);
  }

  /** The score is the numeric value of the score field when that field is truthy, and 0 otherwise. */
  lemma ScoreFromTruthyField(settings: Settings, pm: PauseMenu)
    ensures var v := Field(EffectiveStats(pm), settings.scoreVar);
      BuildDto(settings, pm).dto.score == (if Truthy(v) then ToNumber(v) else Int(0))
    ensures forall k: int :: Field(EffectiveStats(pm), settings.scoreVar) == Numeric(Int(k)) ==>
      BuildDto(settings, pm).dto.score == Int(k)
  {
  }

  /** Control statistics win: once `gameControl.stats` exists, the menu's own statistics are never read. */
  lemma ControlStatsTakePrecedence(settings: Settings, stats: Stats, own: Option<Stats>)
    ensures BuildDto(settings, PauseMenu(Some(GameControl(Some(stats))), own)).dto
         == BuildDto(settings, PauseMenu(None, Some(stats))).dto
    ensures BuildDto(settings, PauseMenu(Some(GameControl(Some(stats))), own)).menu.stats == Some(stats)
  {
  }

  /** Building again from the synced menu gives the same DTO and changes the menu no further. */
  lemma BuildDtoIdempotent(settings: Settings, pm: PauseMenu)
    ensures var first := BuildDto(settings, pm);
      BuildDto(settings, first.menu) == first
  {
  }

  const SessionTimeKeys: seq<string> := ["sessionTime", "elapsedMs", "timePlayed"]

  /** `sessionTime` comes from the first truthy of `sessionTime`, `elapsedMs`, `timePlayed`, coerced by `Number(...) || 0`. */
  lemma SessionTimeFirstTruthy(settings: Settings, pm: PauseMenu, k: nat)
    requires k < |SessionTimeKeys|
    requires Truthy(Field(EffectiveStats(pm), SessionTimeKeys[k]))
    requires forall j :: 0 <= j < k ==> !Truthy(Field(EffectiveStats(pm), SessionTimeKeys[j]))
    ensures BuildDto(settings, pm).dto.sessionTime == NumberOrZero(Field(EffectiveStats(pm), SessionTimeKeys[k]))
  {
    assert SessionTimeKeys[0] == "sessionTime" && SessionTimeKeys[1] == "elapsedMs" && SessionTimeKeys[2] == "timePlayed";
    if k > 0 {
      assert !Truthy(Field(EffectiveStats(pm), SessionTimeKeys[0]));
    }
    if k > 1 {
      assert !Truthy(Field(EffectiveStats(pm), SessionTimeKeys[1]));
    }
  }

  /** With none of the three time fields truthy, `sessionTime` is 0. */
  lemma SessionTimeDefault(settings: Settings, pm: PauseMenu)
    requires forall j :: 0 <= j < |SessionTimeKeys| ==> !Truthy(Field(EffectiveStats(pm), SessionTimeKeys[j]))
    ensures BuildDto(settings, pm).dto.sessionTime == 0
  {
    assert !Truthy(Field(EffectiveStats(pm), SessionTimeKeys[0]));
    assert !Truthy(Field(EffectiveStats(pm), SessionTimeKeys[1]));
    assert !Truthy(Field(EffectiveStats(pm), SessionTimeKeys[2]));
  }

  /** A truthy but non-numeric `sessionTime` masks later fields: the DTO gets 0, not `elapsedMs`. */
  lemma SessionTimeMaskedByText(settings: Settings, pm: PauseMenu, s: string)
    requires Field(EffectiveStats(pm), "sessionTime") == Text(s)
    requires s != [] && StringToNumber(s).NaN?
    ensures BuildDto(settings, pm).dto.sessionTime == 0
  {
  }

  /** `totalPowerUps` is the numeric value of the field, and 0 when it is missing or not a number. */
  lemma TotalPowerUpsDefault(settings: Settings, pm: PauseMenu)
    ensures var n := ToNumber(Field(EffectiveStats(pm), "totalPowerUps"));
      BuildDto(settings, pm).dto.totalPowerUps == (if n.Int? then n.i else 0)
    ensures EffectiveStats(pm).None? || "totalPowerUps" !in EffectiveStats(pm).value ==>
      BuildDto(settings, pm).dto.totalPowerUps == 0
  {
  }
}

=== FILE: wrappers.dfy ===
/** Option: a present value or JavaScript's `null`/`undefined`. */
module Wrappers {

  datatype Option<+T> = None | Some(value: T) {

    /** The value if present, otherwise `default`. */
    function GetOr(default: T): T {
      match this
      case Some(v) => v
      case None => default
    }
  }
}
